=== FILE: README.md ===
# WXT536 plugin: a Dafny model

This project models the core of a small Python plugin for a Vaisala WXT536
weather transmitter, and proves properties of that model.

**The plugin (`app.py`).** It polls the instrument over a serial line. Each
cycle it writes the query `0R0\r\n` and reads one ASCII frame back. It
decodes the frame into a dictionary of readings (`parse_values`). It then
publishes every reading that has a publish name, once for the node scope and
once for the beehive scope, each scope only when its interval is positive
(`start_publishing`). The main loop repeats this until a cycle raises.

**The logger (`read_wxt530.py`).** A companion script that optionally writes
a query, reads a line, prefixes it with a time text and appends it as a CSV
row to a file named after the site.

The model is split into modules that follow the program:

| module | file | what it models |
|---|---|---|
| `Decimal` | decimal.dfy | the number tokens inside a frame (`045`, `20.5`, `-3.498`) and their values |
| `Frame` | frame.dfy | the four frame templates, the anchored match, `parse.search`'s leftmost search and `parse_values` |
| `FrameExamples` | frame_examples.dfy | concrete frames run through the decoder |
| `Publish` | publish.dfy | one scope's publish loop, one `start_publishing` cycle, and `main`'s loop over a finite list of reads |
| `Tables` | tables.dfy | the `publish_names` and `units` tables of `main` and what they do to the loop |
| `Logger` | logger.dfy | the pure parts of `read_wxt530.py`: the query, the stamped record, the file name and the CSV row |
| `Strings`, `Options` | strings.dfy, options.dfy | prefix and concatenation lemmas; an `Option` type |

`Decode` has three outcomes:

- `NoSample`: the prefix is unknown and the source returns `None`.
- `Sample(m)`: the template was found.
- `Fail`: the prefix is known but `parse.search` found nothing. Iterating its
  `None` then raises, and the main loop ends.

A publish is modelled as appending a `Record` to a list. A cycle's result is
the list of records it emitted together with the error it raised, if any.
Records emitted before a `KeyError` are kept, as the source has already
published them by then.

## Model

| member | source | states |
|---|---|---|
| Decimal.Scan | app.py:12-19 | A number token is read exactly when the text, after an optional minus, starts with a digit. The text read is exactly the token's rendering. The read is maximal: no digit follows it, and an integer token is not followed by a dot and a digit. |
| Decimal.ScanRender | app.py:12-19 | Round trip: scanning the rendering of a valid token, followed by text that cannot continue a number, gives back that token and that text. |
| Decimal.ScanUnsigned | app.py:12-19 | The digits before the dot and the optional fraction: present exactly when the text starts with a digit. Whole part, fraction and rest concatenate back to the input. |
| Decimal.DigitRunOf | app.py:12-19 | The digit run of a digit string followed by a non-digit is that whole digit string. |
| Decimal.Value | app.py:23 | `float(var)` as the token's exact number: never negative without a minus sign, never positive with one. The number itself is stated by Decimal.ValueSplit. |
| Decimal.ValueSplit | app.py:23 | Every valid token denotes its whole digits plus its fraction digits divided by ten to the fraction's length, negated when it carries a minus: `20.5` is 20 + 5/10. |
| Decimal.ValueWhole | app.py:23 | A token without a fraction denotes the integer its digits spell, negated when it carries a minus. |
| Decimal.ValueTrailingZero | app.py:23 | Trailing zeros in the fraction do not change the number: `20.50` and `20.5` convert to the same value. |
| Frame.MatchAt | app.py:12-21 | A match at the start of a text yields one valid token per template field. |
| Frame.MatchAtSound | app.py:12-21 | A match at the start of a text consumes exactly the rendering of the tokens it returns. |
| Frame.MatchAtRender | app.py:12-21 | Round trip: a template filled with valid tokens and followed by any text matches at its start, giving back those tokens. |
| Frame.MatchFromRender | app.py:12-19 | The same round trip for the fields from position k onwards, by induction over the fields. |
| Frame.SearchFrom | app.py:12-21 | The search from a position returns, when it finds anything, one valid token per template field. Which match it returns is stated by Frame.SearchFromNone and Frame.SearchFromLeftmost. |
| Frame.Search | app.py:12-21 | `parse.search` over the whole frame: one valid token per field when found. It is SearchFrom from position 0, so Frame.SearchFromNone and Frame.SearchFromLeftmost state where the match lies. |
| Frame.SearchFromNone | app.py:12-21 | `parse.search` returns nothing exactly when the template matches at no position of the text. |
| Frame.SearchFromLeftmost | app.py:12-21 | `parse.search` returns the match at the leftmost position where the template matches. |
| Frame.TemplateFor | app.py:10-64 | The `if/elif` dispatch on `sample.startswith`: a frame selects a template only if it begins with `0R0`, `0R2`, `0R3` or `0R5`. Which template each prefix selects is stated by Frame.Dispatch; that nothing after the prefix matters is stated by Frame.TemplateForPrefix. |
| Frame.TemplateForPrefix | app.py:10-64 | Only the first three characters of a frame choose its template; a frame shorter than three characters chooses none. |
| Frame.Dispatch | app.py:10-64 | `0R0`, `0R2`, `0R3` and `0R5` select the composite, environmental, precipitation and heating-voltage templates; `0R1` and `0R9` select none. |
| Frame.TemplatesWellFormed | app.py:11-56 | Every template has one unit per code, no code twice, and unit characters that cannot continue a number. |
| Frame.Values | app.py:23 | `[float(var) for var in data]`: one value per token, in order, each the token's exact value. |
| Frame.Zip | app.py:24 | `dict(zip(parms, strip))`: the keys are exactly the codes; with distinct codes, each code maps to the value at its position. |
| Frame.Decode | app.py:8-66 | The result is `None` exactly when the prefix is unknown. A decoded sample has exactly its template's codes as keys. |
| Frame.DecodeFails | app.py:20-23 | A frame fails to decode exactly when its prefix is known and its template matches at no position of it. |
| Frame.DecodeRender | app.py:8-66 | Round trip: `0Rn,` followed by the template filled with valid tokens and any tail decodes to those numbers, keyed by the template's codes. |
| Frame.DecodeShowsUnits | app.py:12-19 | A frame that lacks any unit character of its template fails. For example, a `0R0` frame without `#` never decodes. |
| FrameExamples.EnvironmentalSample | app.py:26-35 | `0R2,Ta=20.5C,Ua=65.0P,Pa=1013.0H` decodes to `{Ta: 20.5, Ua: 65.0, Pa: 1013.0}`. |
| FrameExamples.CompositeWithHeatingStateFails | app.py:12-19 | A composite frame whose heater voltage ends in `N` instead of `#` fails. |
| FrameExamples.HeatingVoltageWithoutStateFails | app.py:53-56 | A heating-voltage frame with `#` instead of `N` behind the heater voltage fails. |
| Publish.Present | app.py:100-104 | Never more entries than the table. Which entries, and in which order, is stated by Publish.PresentMembers, Publish.PresentKeepRun and Publish.PresentSkipRun. |
| Publish.PresentMembers | app.py:100-104 | Those entries are exactly the table entries whose key is in the sample. |
| Publish.PresentKeepRun | app.py:100-104 | A run of entries whose keys the sample holds is kept whole and in order. |
| Publish.PresentSkipRun | app.py:100-104 | A run of entries whose keys the sample lacks is skipped. |
| Publish.PublishScope | app.py:100-117 | A scope's loop raises nothing exactly when every table entry whose key the sample holds has units. When it raises, the `KeyError` names a publish name missing from the units table. |
| Publish.PublishScopeRecords | app.py:100-117 | The j-th record of a scope's loop is the record for the j-th present entry: that entry's name, its sample value and its units. |
| Publish.PublishScopeStops | app.py:100-117 | The loop publishes every present entry unless it raises. When it raises, it is at the first present entry without units, and the `KeyError` names that entry. |
| Publish.PublishScopeRaisesAt | app.py:100-117 | When the first m present entries have units and the next one does not, the loop publishes exactly m records and raises on that entry. |
| Publish.ScopeStamped | app.py:109-117 | Every record of a scope's loop carries that scope, the cycle's one timestamp, the sensor `vaisala-wxt536` and the missing value `-9999.9`. |
| Publish.ScopesAgree | app.py:119-138 | The node loop and the beehive loop publish the same names, values and units, and raise the same error; only the scope tag differs. |
| Publish.PublishCycle | app.py:93-138 | A failed decode raises and publishes nothing. A falsy sample publishes nothing. Every record is stamped with the cycle's timestamp. Node records come before beehive records. A scope whose interval is not positive publishes nothing. |
| Publish.Cycle | app.py:86-138 | One `start_publishing` call on a read frame: a frame whose template is not found raises `NotIterable` with nothing published; a frame of an unknown query publishes nothing and raises nothing; every record carries the reading's timestamp. |
| Publish.CycleScopes | app.py:96-138 | The node records are the node loop's records when its interval is positive. The beehive records are the beehive loop's when its interval is positive and the node loop did not raise. The cycle's error follows the same order. |
| Publish.Loop | app.py:180-192 | Each cycle writes the query `0R0\r\n`. A loop that did not stop wrote one query per cycle. |
| Publish.LoopStops | app.py:180-192 | Every cycle but the last completed. The error that ended the loop is the last cycle's. A loop that did not stop completed every cycle. |
| Publish.LoopAppend | app.py:180-192 | After cycles that all complete, the loop continues with the loop over the later cycles: queries and records concatenate. |
| Publish.LoopCompletes | app.py:180-192 | A loop over cycles that all complete does not stop. |
| Publish.LoopEnds | app.py:180-192 | The loop runs through every cycle exactly when none raises; otherwise it ends with the error of the last cycle it ran, and every cycle before that one completed. |
| Publish.RunMain | app.py:180-192 | `main` over a list of reads writes `0R0\r\n` once per cycle it runs. It goes through every read exactly when no cycle raises. Otherwise it ends at the first raising cycle, with that cycle's error, after one query per cycle up to and including it. |
| Publish.RunStopsAt | app.py:180-192 | A cycle that raises ends the run. It writes one more query and keeps the records that cycle emitted. The readings after it are never used. |
| Publish.RunStopsAtFail | app.py:20-23 | A known frame whose template is not found ends the run in its cycle, with nothing published by that cycle. |
| Publish.EmissionsAppend | app.py:180-188 | The cycles of two lists of readings are the cycles of each list, in order. |
| Tables.UnitsAsWrittenMissesHailDuration | app.py:160-177 | The only publish name without an entry in the units table as written is `wxt.hail.duration`. |
| Tables.UnitsCoverNames | app.py:141-177 | With the key spelt as in the name table, every publish name has units. |
| Tables.HailDurationEntry | app.py:141-158 | `wxt.hail.duration` is the eleventh entry, keyed `Hd`, and no other entry has that name. |
| Tables.PrecipitationPresent | app.py:141-158 | A precipitation sample keeps the rain accumulation, duration and intensity and the hail accumulation, duration and intensity, in table order. |
| Tables.HailDurationRaises | app.py:151 | With the units table as written, a precipitation sample makes a scope's loop publish 4 records (rain accumulation, duration, intensity, hail accumulation) and then raise `KeyError` on `wxt.hail.duration`. |
| Tables.AsWrittenScopeRaises | app.py:160-177 | With the units table as written, a scope's loop raises exactly when the sample holds `Hd`, and then always on `wxt.hail.duration`. |
| Tables.AsWrittenCycleRaises | app.py:96-138 | With the units table as written, a cycle raises `KeyError` on `wxt.hail.duration` exactly when the decoded sample holds `Hd` and a scope is enabled. Any other error is a failed decode. |
| Tables.HailDurationStopsCycle | app.py:96-138 | A precipitation sample with any scope enabled makes the cycle raise on the hail duration after 4 records. |
| Tables.DecodedKeys | app.py:10-61 | A decoded sample holds `Hd` exactly when its frame is a precipitation frame, and never holds `Rp` or `Hp`. |
| Tables.PrecipitationFrameKeys | app.py:37-49 | A rendered `0R3` frame decodes to a sample whose keys are exactly `Rc, Rd, Ri, Hc, Hd, Hi`. |
| Tables.CorrectedCycleCompletes | app.py:96-138 | With the corrected units table, a cycle raises exactly when the decode failed. A truthy sample gets one record per present entry in each enabled scope. |
| Tables.CorrectedPrecipitationCycle | app.py:96-138 | With the corrected units table, a precipitation sample publishes its 6 readings in each enabled scope and raises nothing. |
| Tables.MainAsWritten | app.py:179-192 | `main` as written stops only on a failed decode or on the hail-duration `KeyError`. |
| Tables.MainCorrected | app.py:179-192 | `main` with the corrected units table runs through all its reads exactly when every read decodes; otherwise it stops on the failed decode. |
| Tables.AsWrittenRunStops | app.py:179-192 | A run of `main` with the units table as written ends, if at all, on a failed decode or on the hail-duration `KeyError`. |
| Tables.CorrectedRunStops | app.py:179-192 | With the corrected units table, a run of `main` goes through every read exactly when no read fails to decode, and otherwise ends on the failed decode. |
| Tables.HailDurationEndsMain | app.py:179-192 | As written, the first precipitation frame ends `main` in its cycle, one query and four records after the completed cycles before it. |
| Logger.QueryBytes | read_wxt530.py:15-17 | A query is written exactly when polling, and it is the query text followed by `\r\n`. |
| Logger.PollSave | read_wxt530.py:24-31 | A read returns nothing exactly when the line is empty; otherwise the record is one character longer than the time text and the line together. Its content is stated by Logger.PollSaveSplits. |
| Logger.PollSaveSplits | read_wxt530.py:26-27 | The stamped record splits at its first comma back into the time text and the line read. |
| Logger.Filename | read_wxt530.py:37-42 | The file name is `WXT536_<site>_<time>` followed directly by the extension: it starts with that text and is exactly three characters longer for `nc`/`netcdf` and four otherwise. With Logger.FilenameExtension this fixes the name. |
| Logger.FilenameExtension | read_wxt530.py:39-42 | The name ends in `.nc` exactly for the formats `nc` and `netcdf`, and in `.csv` otherwise. |
| Logger.LStrip | read_wxt530.py:57 | The result is a suffix of the input, what it drops is whitespace, and it does not start with whitespace. |
| Logger.RStrip | read_wxt530.py:57 | The result is a prefix of the input, what it drops is whitespace, and it does not end with whitespace. |
| Logger.Strip | read_wxt530.py:57 | `str.strip()`: the result is no longer than the input and neither starts nor ends with whitespace. |
| Logger.StripDecomposes | read_wxt530.py:57 | The input is leading whitespace, then the stripped text, then trailing whitespace. |
| Logger.StripUnique | read_wxt530.py:57 | Whitespace around a text without whitespace at its ends strips to exactly that text. |
| Logger.StripIdempotent | read_wxt530.py:57 | Stripping twice gives the same as stripping once. |
| Logger.Split | read_wxt530.py:57 | `str.split(',')` gives at least one part, and no part holds a comma. |
| Logger.JoinSplit | read_wxt530.py:57 | Joining the parts with commas gives the text back. |
| Logger.SplitJoin | read_wxt530.py:57 | Splitting comma-joined parts that hold no comma gives the parts back. |
| Logger.CsvRow | read_wxt530.py:57 | The row written for a record has at least one field. |
| Logger.CsvRowJoins | read_wxt530.py:57 | The row's fields joined with commas are exactly the stripped record. |
| Logger.CsvRowStamped | read_wxt530.py:26-27 | The row of a stamped record is the time text followed by the comma-separated fields of the line, with its trailing whitespace dropped. |
| Logger.LoggerRun | read_wxt530.py:44-60 | When polling, a run writes one query per read. With `nc` or `netcdf` it writes no rows; otherwise one row per non-empty read. |
| Logger.LoggerRowsStamped | read_wxt530.py:44-60 | The k-th row is the k-th kept read's time text followed by the fields of its line; Logger.KeptAppend and Logger.KeptOne say which reads are kept, and in which order. |
| Logger.Kept | read_wxt530.py:49 | One kept read per non-empty read, each non-empty and taken from the history. |
| Logger.KeptOne | read_wxt530.py:49 | A single read is kept exactly when it returned something. |
| Logger.KeptAppend | read_wxt530.py:44-49 | The reads kept from two stretches of reads are those of the first followed by those of the second. With Logger.KeptOne this fixes the kept reads: every non-empty read, once each, in the order read. |

## Left out

- Serial I/O, the plugin transport and `get_timestamp`. They are replaced by inputs: a list of readings, each a timestamp and a line.
- The `parse` library itself. Every replacement field of the templates is approximated by one decimal-token grammar: an optional minus, digits, and an optional `.digits`.
  - None of the fields (`{.1F}`, `{.2F}`, `{3D}`, `{.3F)}` at app.py:12-19, 28-30, 39-44, 53-56) has the `:` that introduces a type in the library's format syntax. How the library reads them is therefore not modelled for any of them, not only for `{3D}` and the `{.3F)}` with its stray `)`.
  - A `+` sign, a number without leading digits such as `.5`, and exponents are not accepted. The precision a field names is not enforced.
  - Codes and unit characters are matched case-sensitively. `parse.search` ignores letter case by default, which the model does not.
  - Decimal.Scan: states the grammar above, not the library's own type semantics.
- Frame.DecodeShowsUnits: holds for case-sensitive matching only. Under the library's default, a frame with `S` where the template has the unit `s` may still decode.
- Float conversion. `float(var)` is the token's exact rational value. Binary rounding is not modelled.
- Tables.MainAsWritten: "stops only on a failed decode or the hail-duration `KeyError`" is about the model's errors. In the source a field can capture text that is not a number; `float(var)` then raises `ValueError` (app.py:23, 34, 48, 60), which also ends `main`. The model's fields only match numbers, so such a frame is a failed decode or matches at a later position instead.
- `sample.decode('utf-8')` (app.py:20) and `data.decode('utf-8')` (read_wxt530.py:27). Lines are modelled as character strings, so a decode error cannot occur.
- Logger.LoggerRun: never stops. In the source, a read that is not valid UTF-8 raises in `pollsave`, outside any `try`, and ends the logger's loop (read_wxt530.py:46). The model does not represent that stop.
- The debug print and `logging.info` (app.py:106-108, 127-129). The print reads `units[name]` before publishing, so it raises the same `KeyError` the model raises at that entry. Its output is not modelled.
- Publish.Loop: `main` loops for ever. The model runs over a finite list of reads, and a run that did not stop is only a prefix of the real run.
- The exception handler's prints (app.py:190-191) and the argument parser (app.py:194 onward; read_wxt530.py:62-113). `--poll` with `type=bool` is taken as the boolean it is meant to be.
- The logger's file writes, `csv.writer` quoting, the swallowed write exception (read_wxt530.py:58-59), the verbose print and `time.sleep`. Rows are modelled as the field lists handed to `writerow`.
- `datetime.now()` and `strftime`. The time text is an input. Where a lemma needs it to split cleanly, it is assumed to have no comma and no leading whitespace.
- `app.py` derives no `Jo` reading, always expects `Hc` in a precipitation frame, has no `0R1` or `0R9` branch (such frames decode to `None`) and does not retry a failed read; the model does the same.
- A composite frame ending in `Vh=…N` fails under the code's `#` template (see FrameExamples.CompositeWithHeatingStateFails).

## Findings

| source | as written | input that shows it | evidently intended | confidence | as-written member | corrected member |
|---|---|---|---|---|---|---|
| app.py:170 | The units table keys the hail duration as `wxt.hail.duratioun`, while `publish_names` (app.py:151) spells it `wxt.hail.duration`. `units[name]` therefore raises `KeyError` for the first precipitation (`0R3`) frame read while a scope is enabled, and `main` ends. | a `0R3` frame such as `0R3,Rc=0.00M,Rd=0s,Ri=0.0M,Hc=0.0M,Hd=0s,Hi=0.0M` (one valid rendering of the template) with `node_interval > 0` | the key spelt `wxt.hail.duration`, so the hail duration is published with unit `seconds` and the loop goes on | high, not executed | Tables.HailDurationEndsMain | Tables.CorrectedPrecipitationCycle |

=== FILE: decimal.dfy ===
/**
 Decimal number tokens as they appear in a WXT ASCII frame (`045`, `1.2`, `-5.25`).

 The decoder hands each field of a frame to the `parse` library with a
 replacement field such as `{.1F}`, `{.2F}`, `{3D}` or `{.3F)}`; the
 library's code is not part of this model. None of these fields has the `:`
 that introduces a type in the library's format syntax, so how the library
 reads any of them is not visible here. All of them are approximated by ONE
 grammar: an optional minus sign, a non-empty run of digits and an optional
 fraction (a dot followed by a non-empty run of digits). A `+` sign, a
 number without leading digits such as `.5`, an exponent and the precision
 the field names are not part of it, and `{.3F)}` (Vr, app.py:56) is read
 like the other fields despite its stray `)`.

 The token is scanned by maximal munch, which for this grammar coincides with
 a backtracking regular-expression match when the next template character is
 neither a digit nor a dot (true of every unit character).
 */
module Decimal {
  import opened Options
  import Strings

  predicate IsDigit(c: char) {
    '0' <= c <= '9'
  }

  predicate AllDigits(s: string) {
    forall i :: 0 <= i < |s| ==> IsDigit(s[i])
  }

  /** A decimal token: sign, the digits before the dot, the digits after it. */
  datatype Token = Token(negative: bool, whole: string, frac: string) {
    predicate Valid() {
      |whole| > 0 && AllDigits(whole) && AllDigits(frac)
    }
  }

  /** The characters a token occupies in a frame; a token without fraction has no dot. */
  function Render(t: Token): string {
    SignText(t.negative) + t.whole + FracText(t.frac)
  }

  function SignText(negative: bool): string {
    if negative then "-" else ""
  }

  /** A non-empty fraction is written behind a dot; an empty one is not written at all. */
  function FracText(frac: string): string {
    if |frac| == 0 then "" else "." + frac
  }

  /** What may follow a token in a frame without being absorbed by it. */
  predicate Boundary(rest: string) {
    |rest| == 0 || (!IsDigit(rest[0]) && rest[0] != '.')
  }

  /** Length of the longest all-digit prefix of `s`. */
  function DigitRun(s: string): (n: nat)
    ensures n <= |s|
    ensures AllDigits(s[..n])
    ensures n < |s| ==> !IsDigit(s[n])
  {
    if |s| > 0 && IsDigit(s[0]) then
      var m := DigitRun(s[1..]);
      assert s[..1 + m] == [s[0]] + s[1..][..m];
      1 + m
    else 0
  }

  /** The fraction part of a token, if `s` starts with a dot and a digit, and the rest behind it. */
  function ScanFraction(s: string): (r: (string, string))
    ensures AllDigits(r.0)
    ensures s == FracText(r.0) + r.1
    ensures |r.0| > 0 ==> |r.1| == 0 || !IsDigit(r.1[0])
    ensures |r.0| == 0 ==> !(|s| >= 2 && s[0] == '.' && IsDigit(s[1]))
  {
    if |s| >= 2 && s[0] == '.' && IsDigit(s[1]) then
      var m := DigitRun(s[1..]);
      assert s == "." + s[1..][..m] + s[1..][m..] by {
        assert s[1..] == s[1..][..m] + s[1..][m..];
      }
      (s[1..][..m], s[1..][m..])
    else ("", s)
  }

  /** `s` cut behind its leading run of digits. */
  function SplitDigits(s: string): (r: (string, string))
    ensures s == r.0 + r.1 && AllDigits(r.0)
    ensures |r.1| == 0 || !IsDigit(r.1[0])
    ensures |r.0| == 0 <==> |s| == 0 || !IsDigit(s[0])
  {
    var n := DigitRun(s);
    assert s == s[..n] + s[n..];
    (s[..n], s[n..])
  }

  /** The unsigned part of a token (digits and fraction) and the rest behind it. */
  function ScanUnsigned(s: string): (r: Option<(string, string, string)>)
    ensures r.None? <==> |s| == 0 || !IsDigit(s[0])
    ensures r.Some? ==> |r.value.0| > 0 && AllDigits(r.value.0) && AllDigits(r.value.1)
    ensures r.Some? ==> s == r.value.0 + FracText(r.value.1) + r.value.2
    ensures r.Some? ==> |r.value.2| == 0 || !IsDigit(r.value.2[0])
    ensures r.Some? && |r.value.1| == 0 ==> !(|r.value.2| >= 2 && r.value.2[0] == '.' && IsDigit(r.value.2[1]))
  {
    var d := SplitDigits(s);
    if |d.0| == 0 then None
    else
      var fr := ScanFraction(d.1);
      Strings.Associative(d.0, FracText(fr.0), fr.1, "");
      assert fr.1 + "" == fr.1;
      Some((d.0, fr.0, fr.1))
  }

  /**
   Scans one token at the start of `s` and returns it with the unread rest.
   The token is the longest one the grammar allows: the rest never starts with
   a digit, and a token without fraction is not followed by a dot and a digit.
   */
  function Scan(s: string): (r: Option<(Token, string)>)
    ensures r.Some? ==> r.value.0.Valid() && s == Render(r.value.0) + r.value.1
    ensures r.Some? ==> |r.value.1| == 0 || !IsDigit(r.value.1[0])
    ensures r.Some? && |r.value.0.frac| == 0 ==> !(|r.value.1| >= 2 && r.value.1[0] == '.' && IsDigit(r.value.1[1]))
    ensures r.None? <==> Unsigned(s) == "" || !IsDigit(Unsigned(s)[0])
  {
    var negative := |s| > 0 && s[0] == '-';
    var u := ScanUnsigned(Unsigned(s));
    if u.None? then None
    else
      var tok := Token(negative, u.value.0, u.value.1);
      Strings.Associative(SignText(negative), u.value.0, FracText(u.value.1), u.value.2);
      Some((tok, u.value.2))
  }

  /** `s` without its leading minus sign, if it has one. */
  function Unsigned(s: string): (u: string)
    ensures s == SignText(|s| > 0 && s[0] == '-') + u
  {
    if |s| > 0 && s[0] == '-' then s[1..] else s
  }

  lemma {:induction false} DigitRunOf(ds: string, rest: string)
    requires AllDigits(ds)
    requires |rest| == 0 || !IsDigit(rest[0])
    ensures DigitRun(ds + rest) == |ds|
    decreases |ds|
  {
    if |ds| > 0 {
      assert (ds + rest)[1..] == ds[1..] + rest;
      DigitRunOf(ds[1..], rest);
    } else {
      assert ds + rest == rest;
    }
  }

  lemma ScanFractionRender(frac: string, rest: string)
    requires AllDigits(frac)
    requires Boundary(rest)
    ensures ScanFraction(FracText(frac) + rest) == (frac, rest)
  {
    if |frac| > 0 {
      var s := FracText(frac) + rest;
      assert s == "." + (frac + rest);
      assert s[1..] == frac + rest;
      DigitRunOf(frac, rest);
      assert s[1..][..|frac|] == frac;
      assert s[1..][|frac|..] == rest;
    } else {
      assert FracText(frac) + rest == rest;
    }
  }

  lemma ScanUnsignedRender(whole: string, frac: string, rest: string)
    requires |whole| > 0 && AllDigits(whole) && AllDigits(frac)
    requires Boundary(rest)
    ensures ScanUnsigned(whole + FracText(frac) + rest) == Some((whole, frac, rest))
  {
    var tail := FracText(frac) + rest;
    var s := whole + tail;
    assert whole + FracText(frac) + rest == s;
    DigitRunOf(whole, tail);
    assert s[..|whole|] == whole;
    assert s[|whole|..] == tail;
    ScanFractionRender(frac, rest);
  }

  /** Scanning a rendered token returns that token and exactly the rest behind it. */
  lemma ScanRender(t: Token, rest: string)
    requires t.Valid()
    requires Boundary(rest)
    ensures Scan(Render(t) + rest) == Some((t, rest))
  {
    var s := Render(t) + rest;
    var u := t.whole + FracText(t.frac) + rest;
    Strings.Associative(SignText(t.negative), t.whole, FracText(t.frac), rest);
    assert s == SignText(t.negative) + u;
    if t.negative {
      assert s[1..] == u;
    } else {
      assert s == u;
      assert s[0] == t.whole[0];
    }
    assert Unsigned(s) == u;
    ScanUnsignedRender(t.whole, t.frac, rest);
  }

  /** The decimal value of a digit string. */
  function DigitsValue(s: string): nat
    requires AllDigits(s)
  {
    if |s| == 0 then 0 else DigitsValue(s[..|s| - 1]) * 10 + (s[|s| - 1] as int - '0' as int)
  }

  /** A positive whole number, the type of the scale a fraction is divided by. */
  type Positive = n: nat | n >= 1 witness 1

  function Pow10(n: nat): Positive {
    if n == 0 then 1 else 10 * Pow10(n - 1)
  }

  /**
   The exact number a valid token denotes (`float(var)`, app.py:23); Python's
   conversion to a binary float is not modelled. Only a minus sign makes it
   negative.
   */
  function Value(t: Token): (v: real)
    requires t.Valid()
    ensures !t.negative ==> v >= 0.0
    ensures t.negative ==> v <= 0.0
  {
    var magnitude := DigitsValue(t.whole + t.frac) as real / Pow10(|t.frac|) as real;
    if t.negative then -magnitude else magnitude
  }

  /** A token without a fraction denotes its digits' integer value, with its sign. */
  lemma ValueWhole(negative: bool, whole: string)
    requires Token(negative, whole, "").Valid()
    ensures Value(Token(negative, whole, "")) == if negative then -(DigitsValue(whole) as real) else DigitsValue(whole) as real
  {
    assert whole + "" == whole;
    assert Pow10(|""|) == 1;
    var x := DigitsValue(whole) as real;
    assert x / 1.0 == x;
  }

  /** The digits of `a + b` read as `a` shifted by the length of `b`, plus `b`. */
  lemma {:induction false} DigitsValueAppend(a: string, b: string)
    requires AllDigits(a) && AllDigits(b)
    ensures AllDigits(a + b)
    ensures DigitsValue(a + b) == DigitsValue(a) * Pow10(|b|) + DigitsValue(b)
    decreases |b|
  {
    var c := a + b;
    assert AllDigits(c) by {
      forall i | 0 <= i < |c| ensures IsDigit(c[i]) {
        if i < |a| { assert c[i] == a[i]; } else { assert c[i] == b[i - |a|]; }
      }
    }
    if |b| == 0 {
      assert c == a;
    } else {
      var b' := b[..|b| - 1];
      var d := b[|b| - 1] as int - '0' as int;
      assert AllDigits(b') by {
        forall i | 0 <= i < |b'| ensures IsDigit(b'[i]) { assert b'[i] == b[i]; }
      }
      assert c[..|c| - 1] == a + b';
      assert c[|c| - 1] == b[|b| - 1];
      DigitsValueAppend(a, b');
      var x, y, p := DigitsValue(a), DigitsValue(b'), Pow10(|b'|);
      assert DigitsValue(a + b') == x * p + y;
      assert DigitsValue(c) == DigitsValue(a + b') * 10 + d;
      assert DigitsValue(b) == y * 10 + d;
      assert Pow10(|b|) == 10 * p;
      ShiftDigit(x, p, y, d);
    }
  }

  /** One more digit behind `x * p + y` is a shift of `x` by one more place. */
  lemma ShiftDigit(x: int, p: int, y: int, d: int)
    ensures (x * p + y) * 10 + d == x * (10 * p) + (y * 10 + d)
  {
    assert (x * p) * 10 == x * (10 * p);
  }

  /** Dividing `n = w * p + f` by `p` leaves `w` and the fraction `f / p`. */
  lemma DivideSplit(n: nat, w: nat, f: nat, p: Positive)
    requires n == w * p + f
    ensures n as real / p as real == w as real + f as real / p as real
  {
    var pr := p as real;
    assert (w * p) as real == w as real * pr;
    assert n as real == w as real * pr + f as real;
    assert (w as real * pr) / pr == w as real;
  }

  /**
   The value of a token is its whole digits plus its fraction digits scaled by
   ten to the fraction's length, negated when it carries a minus: `20.5` is
   `20 + 5/10`, `-3.498` is `-(3 + 498/1000)`.
   */
  lemma ValueSplit(negative: bool, whole: string, frac: string)
    requires Token(negative, whole, frac).Valid()
    ensures var m := DigitsValue(whole) as real + DigitsValue(frac) as real / Pow10(|frac|) as real;
      Value(Token(negative, whole, frac)) == if negative then -m else m
  {
    var n, w, f, p := DigitsValue(whole + frac), DigitsValue(whole), DigitsValue(frac), Pow10(|frac|);
    DigitsValueAppend(whole, frac);
    DivideSplit(n, w, f, p);
    assert Value(Token(negative, whole, frac)) == if negative then -(n as real / p as real) else n as real / p as real;
  }

  /** Trailing zeros of the fraction do not change the value: `20.50` and `20.5` are the same number. */
  lemma ValueTrailingZero(negative: bool, whole: string, frac: string)
    requires Token(negative, whole, frac).Valid()
    ensures Token(negative, whole, frac + "0").Valid()
    ensures Value(Token(negative, whole, frac + "0")) == Value(Token(negative, whole, frac))
  {
    var ds := whole + frac;
    assert (whole + (frac + "0"))[..|ds|] == ds;
    assert (whole + (frac + "0"))[|ds|] == '0';
    assert DigitsValue(whole + (frac + "0")) == DigitsValue(ds) * 10;
    assert Pow10(|frac + "0"|) == 10 * Pow10(|frac|);
    var x := DigitsValue(ds) as real;
    var p := Pow10(|frac|) as real;
    assert (x * 10.0) / (10.0 * p) == x / p;
  }
}

=== FILE: frame.dfy ===
/**
 The WXT ASCII frame decoder (`parse_values`, app.py:8-66).

 A frame is dispatched on its first three characters. Each known prefix owns
 a template, an ordered list of fields written `<code>=<number><unit>` and
 separated by commas. The decoder searches the whole frame for the first place
 where the template matches and returns the numbers keyed by the field codes.
 Three outcomes are distinguished:
   - `NoSample`: the prefix is unknown and the source returns `None`;
   - `Sample(m)`: the template was found;
   - `Fail`: the prefix is known but the template was not found. The source's
     search then returns `None` and iterating it raises, so no value is
     returned at all; the caller sees an exception.
 */
module Frame {
  import opened Options
  import opened Strings
  import Decimal

  /**
   A template: field `k` is written `codes[k]=<number>units[k]`.
   The field list of a branch (`parms`) and the codes of its format string
   are the same list in every branch of the source, so one list serves both.
   */
  datatype Template = Template(codes: seq<string>, units: string)

  predicate Shaped(tpl: Template) {
    |tpl.codes| == |tpl.units| && |tpl.codes| > 0
  }

  /** `0R0`, app.py:11-19. The heater voltage must be followed by a literal `#`. */
  const Composite := Template(["Dm", "Sm", "Ta", "Ua", "Pa", "Rc", "Th", "Vh"], "DMCPHMC#")

  /** `0R2`, app.py:27-30. */
  const Environmental := Template(["Ta", "Ua", "Pa"], "CPH")

  /** `0R3`, app.py:38-44. */
  const Precipitation := Template(["Rc", "Rd", "Ri", "Hc", "Hd", "Hi"], "MsMMsM")

  /** `0R5`, app.py:52-56. The heater voltage must be followed by `N`. */
  const HeatingVoltage := Template(["Th", "Vh", "Vs", "Vr"], "CNVV")

  /** The outcome of decoding one frame. */
  datatype DecodeResult = NoSample | Sample(values: map<string, real>) | Fail

  predicate DistinctCodes(codes: seq<string>) {
    forall i, j :: 0 <= i < j < |codes| ==> codes[i] != codes[j]
  }

  /** Every unit character ends the number in front of it. */
  predicate UnitsEndNumbers(tpl: Template) {
    forall k :: 0 <= k < |tpl.units| ==> Decimal.Boundary([tpl.units[k]])
  }

  predicate ValidTokens(toks: seq<Decimal.Token>) {
    forall k :: 0 <= k < |toks| ==> toks[k].Valid()
  }

  /** The text of one field holding token `t`. */
  function FieldText(code: string, unit: char, t: Decimal.Token): string {
    code + "=" + Decimal.Render(t) + [unit]
  }

  /** The text of fields `k`, `k + 1`, ... of a template holding `toks`, comma-separated. */
  function RenderFrom(tpl: Template, k: nat, toks: seq<Decimal.Token>): string
    requires |tpl.codes| == |tpl.units| && k + |toks| == |tpl.codes| && |toks| > 0
    decreases |toks|
  {
    var field := FieldText(tpl.codes[k], tpl.units[k], toks[0]);
    if |toks| == 1 then field else field + "," + RenderFrom(tpl, k + 1, toks[1..])
  }

  /** The text a whole template matches when it holds `toks`. */
  function Render(tpl: Template, toks: seq<Decimal.Token>): string
    requires Shaped(tpl) && |toks| == |tpl.codes|
  {
    RenderFrom(tpl, 0, toks)
  }

  /**
   Matches one field at the start of `s`: its code, `=`, a number token and
   its unit character. Returns the token and the text behind the unit. The
   code and the unit are compared exactly, character for character; the
   `parse` library's default of ignoring letter case is not modelled.
   */
  function MatchField(code: string, unit: char, s: string): (r: Option<(Decimal.Token, string)>)
    ensures r.Some? ==> r.value.0.Valid()
  {
    var head := code + "=";
    if !StartsWith(s, head) then None
    else
      var sc := Decimal.Scan(s[|head|..]);
      if sc.None? then None
      else
        var rest := sc.value.1;
        if |rest| == 0 || rest[0] != unit then None
        else Some((sc.value.0, rest[1..]))
  }

  /** A matched field is exactly the text of its token, followed by what is left. */
  lemma MatchFieldSound(code: string, unit: char, s: string)
    requires MatchField(code, unit, s).Some?
    ensures s == FieldText(code, unit, MatchField(code, unit, s).value.0) + MatchField(code, unit, s).value.1
  {
    var head := code + "=";
    var sc := Decimal.Scan(s[|head|..]).value;
    MatchFieldText(code, unit, s, sc.0, sc.1);
  }

  lemma MatchFieldText(code: string, unit: char, s: string, tok: Decimal.Token, rest: string)
    requires StartsWith(s, code + "=")
    requires s[|code + "="|..] == Decimal.Render(tok) + rest
    requires |rest| > 0 && rest[0] == unit
    ensures s == FieldText(code, unit, tok) + rest[1..]
  {
    var head := code + "=";
    assert s == head + s[|head|..];
    assert rest == [unit] + rest[1..];
    Associative(head, Decimal.Render(tok), [unit], rest[1..]);
  }

  /**
   Matches fields `k`, `k + 1`, ... at the very start of `s` and returns their
   tokens in template order with the text behind the last unit character,
   which the search ignores.
   */
  function MatchFrom(tpl: Template, k: nat, s: string): (r: Option<(seq<Decimal.Token>, string)>)
    requires |tpl.codes| == |tpl.units| && k < |tpl.codes|
    ensures r.Some? ==> k + |r.value.0| == |tpl.codes|
    decreases |tpl.codes| - k
  {
    var mf := MatchField(tpl.codes[k], tpl.units[k], s);
    if mf.None? then None
    else
      var tok := mf.value.0;
      var rest := mf.value.1;
      if k == |tpl.codes| - 1 then Some(([tok], rest))
      else if |rest| == 0 || rest[0] != ',' then None
      else
        var more := MatchFrom(tpl, k + 1, rest[1..]);
        if more.None? then None
        else Some(([tok] + more.value.0, more.value.1))
  }

  /** Every token `MatchFrom` returns is a valid decimal token. */
  lemma {:induction false} MatchFromValid(tpl: Template, k: nat, s: string)
    requires |tpl.codes| == |tpl.units| && k < |tpl.codes|
    requires MatchFrom(tpl, k, s).Some?
    ensures ValidTokens(MatchFrom(tpl, k, s).value.0)
    decreases |tpl.codes| - k
  {
    var mf := MatchField(tpl.codes[k], tpl.units[k], s).value;
    if k < |tpl.codes| - 1 {
      var more := MatchFrom(tpl, k + 1, mf.1[1..]).value;
      MatchFromValid(tpl, k + 1, mf.1[1..]);
      ValidTokensCons(mf.0, more.0);
    }
  }

  /** What `MatchFrom` returns is exactly the text it consumed, followed by the rest. */
  lemma {:induction false} MatchFromSound(tpl: Template, k: nat, s: string)
    requires |tpl.codes| == |tpl.units| && k < |tpl.codes|
    requires MatchFrom(tpl, k, s).Some?
    ensures s == RenderFrom(tpl, k, MatchFrom(tpl, k, s).value.0) + MatchFrom(tpl, k, s).value.1
    decreases |tpl.codes| - k
  {
    var r := MatchFrom(tpl, k, s).value;
    var mf := MatchField(tpl.codes[k], tpl.units[k], s).value;
    var tok := mf.0;
    var rest := mf.1;
    MatchFieldSound(tpl.codes[k], tpl.units[k], s);
    if k == |tpl.codes| - 1 {
      assert r == ([tok], rest);
      assert RenderFrom(tpl, k, [tok]) == FieldText(tpl.codes[k], tpl.units[k], tok);
    } else {
      var more := MatchFrom(tpl, k + 1, rest[1..]).value;
      assert r == ([tok] + more.0, more.1);
      MatchFromSound(tpl, k + 1, rest[1..]);
      MatchFromStep(tpl, k, s, tok, rest, more.0, more.1);
      assert s == RenderFrom(tpl, k, [tok] + more.0) + more.1;
      assert r.0 == [tok] + more.0;
      assert r.1 == more.1;
      assert s == RenderFrom(tpl, k, r.0) + r.1;
    }
  }

  lemma ValidTokensCons(tok: Decimal.Token, more: seq<Decimal.Token>)
    requires tok.Valid() && ValidTokens(more)
    ensures ValidTokens([tok] + more)
  {
    assert forall j :: 1 <= j < |more| + 1 ==> ([tok] + more)[j] == more[j - 1];
  }

  lemma MatchFromStep(tpl: Template, k: nat, s: string, tok: Decimal.Token, rest: string,
                      more: seq<Decimal.Token>, tail: string)
    requires |tpl.codes| == |tpl.units| && k + 1 + |more| == |tpl.codes| && |more| > 0
    requires s == FieldText(tpl.codes[k], tpl.units[k], tok) + rest
    requires |rest| > 0 && rest[0] == ','
    requires rest[1..] == RenderFrom(tpl, k + 1, more) + tail
    ensures s == RenderFrom(tpl, k, [tok] + more) + tail
  {
    var toks := [tok] + more;
    assert toks[0] == tok && toks[1..] == more;
    assert rest == "," + rest[1..];
    Associative(FieldText(tpl.codes[k], tpl.units[k], tok), ",", RenderFrom(tpl, k + 1, more), tail);
  }

  /** A rendered field is matched back to its token, and the text behind it is left alone. */
  lemma MatchFieldRender(code: string, unit: char, t: Decimal.Token, rest: string)
    requires t.Valid() && Decimal.Boundary([unit])
    ensures MatchField(code, unit, FieldText(code, unit, t) + rest) == Some((t, rest))
  {
    var head := code + "=";
    var tail := [unit] + rest;
    var s := FieldText(code, unit, t) + rest;
    Associative(head, Decimal.Render(t), [unit], rest);
    assert s == head + (Decimal.Render(t) + tail);
    StartsWithConcat(head, Decimal.Render(t) + tail);
    assert s[|head|..] == Decimal.Render(t) + tail;
    Decimal.ScanRender(t, tail);
    assert tail[1..] == rest;
  }

  /** Fields `k`, `k + 1`, ... rendered from valid tokens are matched back to those tokens. */
  lemma {:induction false} MatchFromRender(tpl: Template, k: nat, toks: seq<Decimal.Token>, rest: string)
    requires |tpl.codes| == |tpl.units| && k + |toks| == |tpl.codes| && |toks| > 0
    requires ValidTokens(toks) && UnitsEndNumbers(tpl)
    ensures MatchFrom(tpl, k, RenderFrom(tpl, k, toks) + rest) == Some((toks, rest))
    decreases |toks|, 1
  {
    if |toks| == 1 {
      MatchLastRender(tpl, k, toks, rest);
    } else {
      MatchNextRender(tpl, k, toks, rest);
    }
  }

  lemma {:induction false} MatchNextRender(tpl: Template, k: nat, toks: seq<Decimal.Token>, rest: string)
    requires |tpl.codes| == |tpl.units| && k + |toks| == |tpl.codes| && |toks| > 1
    requires ValidTokens(toks) && UnitsEndNumbers(tpl)
    ensures MatchFrom(tpl, k, RenderFrom(tpl, k, toks) + rest) == Some((toks, rest))
    decreases |toks|, 0
  {
    ValidTokensTail(toks);
    MatchFromRender(tpl, k + 1, toks[1..], rest);
    var s := RenderFrom(tpl, k, toks) + rest;
    var inner := RenderFrom(tpl, k + 1, toks[1..]) + rest;
    var after := "," + inner;
    assert MatchField(tpl.codes[k], tpl.units[k], s) == Some((toks[0], after)) by {
      assert toks[0].Valid();
      assert Decimal.Boundary([tpl.units[k]]);
      RenderFromSplit(tpl, k, toks, rest);
      MatchFieldRender(tpl.codes[k], tpl.units[k], toks[0], after);
    }
    assert MatchFrom(tpl, k + 1, after[1..]) == Some((toks[1..], rest)) by {
      assert after[1..] == inner;
    }
    ConsTail(toks);
    MatchFromUnfold(tpl, k, s, toks[0], after, (toks[1..], rest));
  }

  lemma RenderFromSplit(tpl: Template, k: nat, toks: seq<Decimal.Token>, rest: string)
    requires |tpl.codes| == |tpl.units| && k + |toks| == |tpl.codes| && |toks| > 1
    ensures RenderFrom(tpl, k, toks) + rest
         == FieldText(tpl.codes[k], tpl.units[k], toks[0]) + ("," + (RenderFrom(tpl, k + 1, toks[1..]) + rest))
  {
    Associative(FieldText(tpl.codes[k], tpl.units[k], toks[0]), ",", RenderFrom(tpl, k + 1, toks[1..]), rest);
  }

  lemma MatchLastRender(tpl: Template, k: nat, toks: seq<Decimal.Token>, rest: string)
    requires |tpl.codes| == |tpl.units| && k + 1 == |tpl.codes| && |toks| == 1
    requires ValidTokens(toks) && UnitsEndNumbers(tpl)
    ensures MatchFrom(tpl, k, RenderFrom(tpl, k, toks) + rest) == Some((toks, rest))
  {
    assert toks[0].Valid();
    assert Decimal.Boundary([tpl.units[k]]);
    MatchFieldRender(tpl.codes[k], tpl.units[k], toks[0], rest);
    assert toks == [toks[0]];
  }

  lemma ValidTokensTail(toks: seq<Decimal.Token>)
    requires |toks| > 0 && ValidTokens(toks)
    ensures ValidTokens(toks[1..])
  {
    forall j | 0 <= j < |toks[1..]| ensures toks[1..][j].Valid() {
      assert toks[1..][j] == toks[j + 1];
    }
  }

  lemma MatchFromUnfold(tpl: Template, k: nat, s: string, tok: Decimal.Token, after: string,
                        more: (seq<Decimal.Token>, string))
    requires |tpl.codes| == |tpl.units| && k + 1 < |tpl.codes|
    requires MatchField(tpl.codes[k], tpl.units[k], s) == Some((tok, after))
    requires |after| > 0 && after[0] == ','
    requires MatchFrom(tpl, k + 1, after[1..]) == Some(more)
    ensures MatchFrom(tpl, k, s) == Some(([tok] + more.0, more.1))
  {
  }

  /** The template matched at the very start of `s`. */
  function MatchAt(tpl: Template, s: string): (r: Option<seq<Decimal.Token>>)
    requires Shaped(tpl)
    ensures r.Some? ==> |r.value| == |tpl.codes| && ValidTokens(r.value)
  {
    var m := MatchFrom(tpl, 0, s);
    if m.None? then None
    else
      MatchFromValid(tpl, 0, s);
      Some(m.value.0)
  }

  /** A match consumes exactly the rendering of the tokens it returns. */
  lemma MatchAtSound(tpl: Template, s: string)
    requires Shaped(tpl) && MatchAt(tpl, s).Some?
    ensures StartsWith(s, Render(tpl, MatchAt(tpl, s).value))
  {
    var m := MatchFrom(tpl, 0, s).value;
    MatchFromSound(tpl, 0, s);
    StartsWithConcat(Render(tpl, m.0), m.1);
  }

  /** A template rendered from valid tokens matches at the start of its own text, giving those tokens back. */
  lemma MatchAtRender(tpl: Template, toks: seq<Decimal.Token>, rest: string)
    requires Shaped(tpl) && UnitsEndNumbers(tpl)
    requires |toks| == |tpl.codes| && ValidTokens(toks)
    ensures MatchAt(tpl, Render(tpl, toks) + rest) == Some(toks)
  {
    MatchFromRender(tpl, 0, toks, rest);
  }

  /**
   The first position at or after `i` at which the template matches, as
   `parse.search` scans a string from left to right.
   */
  function SearchFrom(tpl: Template, s: string, i: nat): (r: Option<seq<Decimal.Token>>)
    requires Shaped(tpl) && i <= |s|
    ensures r.Some? ==> |r.value| == |tpl.codes| && ValidTokens(r.value)
    decreases |s| - i
  {
    var m := MatchAt(tpl, s[i..]);
    if m.Some? then m
    else if i == |s| then None
    else SearchFrom(tpl, s, i + 1)
  }

  /** The search comes back empty exactly when the template matches at no position from `i` on. */
  lemma {:induction false} SearchFromNone(tpl: Template, s: string, i: nat)
    requires Shaped(tpl) && i <= |s|
    ensures SearchFrom(tpl, s, i).None? <==> forall j :: i <= j <= |s| ==> MatchAt(tpl, s[j..]).None?
    decreases |s| - i
  {
    if MatchAt(tpl, s[i..]).None? && i < |s| {
      SearchFromNone(tpl, s, i + 1);
      assert SearchFrom(tpl, s, i) == SearchFrom(tpl, s, i + 1);
      if forall j :: i + 1 <= j <= |s| ==> MatchAt(tpl, s[j..]).None? {
        forall j | i <= j <= |s| ensures MatchAt(tpl, s[j..]).None? {
          if j == i {} else {}
        }
      }
    }
  }

  /** `parse.search`: the leftmost match of the template anywhere in `s`. */
  function Search(tpl: Template, s: string): (r: Option<seq<Decimal.Token>>)
    requires Shaped(tpl)
    ensures r.Some? ==> |r.value| == |tpl.codes| && ValidTokens(r.value)
  {
    SearchFrom(tpl, s, 0)
  }

  /** No match starts at a place that does not spell the first two characters of the first code. */
  lemma NoMatchAt(tpl: Template, s: string)
    requires Shaped(tpl) && |tpl.codes[0]| >= 2 && |s| >= 2
    requires s[0] != tpl.codes[0][0] || s[1] != tpl.codes[0][1]
    ensures MatchAt(tpl, s).None?
  {
    if StartsWith(s, tpl.codes[0] + "=") {
      StartsWithCode(s, tpl.codes[0]);
      assert false;
    }
  }

  lemma StartsWithCode(s: string, code: string)
    requires |code| >= 2 && StartsWith(s, code + "=")
    ensures s[0] == code[0] && s[1] == code[1]
  {
    assert s[..|code| + 1] == code + "=";
    assert s[0] == s[..|code| + 1][0] && s[1] == s[..|code| + 1][1];
  }

  /** The search returns the match at the first position where the template matches. */
  lemma {:induction false} SearchFromLeftmost(tpl: Template, s: string, i: nat, j: nat)
    requires Shaped(tpl) && i <= j <= |s|
    requires forall k :: i <= k < j ==> MatchAt(tpl, s[k..]).None?
    requires MatchAt(tpl, s[j..]).Some?
    ensures SearchFrom(tpl, s, i) == MatchAt(tpl, s[j..])
    decreases j - i
  {
    if i < j {
      assert MatchAt(tpl, s[i..]).None?;
      SearchFromLeftmost(tpl, s, i + 1, j);
    }
  }

  /** The template a frame's prefix selects (app.py:10, 26, 37, 51, 63). */
  function TemplateFor(text: string): (r: Option<Template>)
    ensures r.Some? ==> |text| >= 3 && text[0] == '0' && text[1] == 'R' && text[2] in "0235"
  {
    if StartsWith(text, "0R0") then Some(Composite)
    else if StartsWith(text, "0R2") then Some(Environmental)
    else if StartsWith(text, "0R3") then Some(Precipitation)
    else if StartsWith(text, "0R5") then Some(HeatingVoltage)
    else None
  }

  /** Only the first three characters of a frame choose its template; shorter frames choose none. */
  lemma TemplateForPrefix(text: string)
    ensures TemplateFor(text) == (if |text| >= 3 then TemplateFor(text[..3]) else None)
  {
    if |text| >= 3 {
      var h := text[..3];
      assert h[..3] == h;
      forall p | |p| == 3 ensures StartsWith(text, p) <==> StartsWith(h, p) {}
    }
  }

  /** The dispatch table: each known prefix selects its own template; other queries select none. */
  lemma Dispatch()
    ensures TemplateFor("0R0") == Some(Composite)
    ensures TemplateFor("0R2") == Some(Environmental)
    ensures TemplateFor("0R3") == Some(Precipitation)
    ensures TemplateFor("0R5") == Some(HeatingVoltage)
    ensures TemplateFor("0R1") == None && TemplateFor("0R9") == None
  {
    assert "0R0"[..3] == "0R0";
    assert "0R2"[2] != "0R0"[2] && "0R2"[..3] == "0R2";
    assert "0R3"[2] != "0R0"[2] && "0R3"[2] != "0R2"[2] && "0R3"[..3] == "0R3";
    assert "0R5"[2] != "0R0"[2] && "0R5"[2] != "0R2"[2] && "0R5"[2] != "0R3"[2] && "0R5"[..3] == "0R5";
    assert "0R1"[2] != "0R0"[2] && "0R1"[2] != "0R2"[2] && "0R1"[2] != "0R3"[2] && "0R1"[2] != "0R5"[2];
    assert "0R9"[2] != "0R0"[2] && "0R9"[2] != "0R2"[2] && "0R9"[2] != "0R3"[2] && "0R9"[2] != "0R5"[2];
  }

  predicate KnownPrefix(text: string) {
    StartsWith(text, "0R0") || StartsWith(text, "0R2") || StartsWith(text, "0R3") || StartsWith(text, "0R5")
  }

  /** The numbers the tokens denote, in order (`[float(var) for var in data]`). */
  function Values(toks: seq<Decimal.Token>): (vs: seq<real>)
    requires ValidTokens(toks)
    ensures |vs| == |toks|
    ensures forall k :: 0 <= k < |toks| ==> vs[k] == Decimal.Value(toks[k])
  {
    if |toks| == 0 then []
    else [Decimal.Value(toks[0])] + Values(toks[1..])
  }

  /**
   `dict(zip(codes, values))`. A code listed twice keeps its last value;
   no template lists one twice.
   */
  function Zip(codes: seq<string>, vs: seq<real>): (m: map<string, real>)
    requires |vs| == |codes|
    ensures m.Keys == set c | c in codes
    ensures DistinctCodes(codes) ==> forall k :: 0 <= k < |codes| ==> m[codes[k]] == vs[k]
  {
    if |codes| == 0 then map[]
    else
      var n := |codes| - 1;
      assert codes == codes[..n] + [codes[n]];
      Zip(codes[..n], vs[..n])[codes[n] := vs[n]]
  }

  /** `parse_values` on the text of one frame. */
  function Decode(text: string): (r: DecodeResult)
    ensures r.NoSample? <==> !KnownPrefix(text)
    ensures r.Sample? ==> r.values.Keys == set c | c in TemplateFor(text).value.codes
  {
    match TemplateFor(text)
    case None => NoSample
    case Some(tpl) =>
      match Search(tpl, text)
      case None => Fail
      case Some(toks) => Sample(Zip(tpl.codes, Values(toks)))
  }

  /** A known frame fails to decode exactly when its template matches at no position of it. */
  lemma DecodeFails(text: string)
    ensures Decode(text).Fail? <==> KnownPrefix(text) && forall i :: 0 <= i <= |text| ==> MatchAt(TemplateFor(text).value, text[i..]).None?
  {
    if KnownPrefix(text) {
      SearchFromNone(TemplateFor(text).value, text, 0);
    }
  }

  /** Each template is well formed: one unit per code, no code twice, every unit ends a number. */
  lemma TemplatesWellFormed(text: string)
    requires KnownPrefix(text)
    ensures Shaped(TemplateFor(text).value)
    ensures DistinctCodes(TemplateFor(text).value.codes)
    ensures UnitsEndNumbers(TemplateFor(text).value)
  {
    var tpl := TemplateFor(text).value;
    assert tpl == Composite || tpl == Environmental || tpl == Precipitation || tpl == HeatingVoltage;
    CompositeWellFormed();
    WellFormed(Environmental);
    WellFormed(Precipitation);
    WellFormed(HeatingVoltage);
  }

  lemma CompositeWellFormed()
    ensures Shaped(Composite) && DistinctCodes(Composite.codes) && UnitsEndNumbers(Composite)
  {
  }

  lemma WellFormed(tpl: Template)
    requires tpl == Environmental || tpl == Precipitation || tpl == HeatingVoltage
    ensures Shaped(tpl) && DistinctCodes(tpl.codes) && UnitsEndNumbers(tpl)
  {
  }

  /**
   Round trip: a frame made of a known prefix, a comma and the template's
   fields filled with valid tokens decodes to exactly those numbers, keyed by
   the template's codes, whatever follows the last field.
   */
  lemma DecodeRender(p: string, toks: seq<Decimal.Token>, tail: string)
    requires p == "0R0" || p == "0R2" || p == "0R3" || p == "0R5"
    requires |toks| == |TemplateFor(p).value.codes| && ValidTokens(toks)
    ensures Decode(p + "," + Render(TemplateFor(p).value, toks) + tail)
         == Sample(Zip(TemplateFor(p).value.codes, Values(toks)))
  {
    var tpl := TemplateFor(p).value;
    TemplatesWellFormed(p);
    var text := p + "," + Render(tpl, toks) + tail;
    PrefixedText(p, Render(tpl, toks), tail);
    SamePrefix(p, text);
    HeadLetters(p);
    HeadNoMatch(text, tpl);
    DecodeAfterHead(text, tpl, toks, tail);
  }

  /** A text starting with a known prefix selects that prefix's template. */
  lemma SamePrefix(p: string, text: string)
    requires p == "0R0" || p == "0R2" || p == "0R3" || p == "0R5"
    requires |text| >= 3 && text[..3] == p
    ensures TemplateFor(text) == TemplateFor(p) && TemplateFor(p).Some?
    ensures text[0] == '0' && text[1] == 'R' && '0' <= text[2] <= '9'
  {
    assert p[..3] == p;
    assert text[0] == p[0] && text[1] == p[1] && text[2] == p[2];
  }

  /** Every template's first code is an upper-case letter followed by a lower-case one. */
  lemma HeadLetters(p: string)
    requires p == "0R0" || p == "0R2" || p == "0R3" || p == "0R5"
    ensures TemplateFor(p).Some? && |TemplateFor(p).value.codes| > 0 && |TemplateFor(p).value.codes[0]| == 2
    ensures 'A' <= TemplateFor(p).value.codes[0][0] <= 'Z' && 'a' <= TemplateFor(p).value.codes[0][1] <= 'z'
  {
    Dispatch();
  }

  /** No template matches inside a frame's head `0Rn,`. */
  lemma HeadNoMatch(text: string, tpl: Template)
    requires Shaped(tpl) && |tpl.codes[0]| == 2
    requires 'A' <= tpl.codes[0][0] <= 'Z' && 'a' <= tpl.codes[0][1] <= 'z'
    requires |text| >= 5 && text[0] == '0' && text[1] == 'R' && '0' <= text[2] <= '9' && text[3] == ','
    ensures forall k :: 0 <= k < 4 ==> MatchAt(tpl, text[k..]).None?
  {
    forall k | 0 <= k < 4 ensures MatchAt(tpl, text[k..]).None? {
      NoMatchAt(tpl, text[k..]);
    }
  }

  lemma PrefixedText(p: string, r: string, tail: string)
    requires |p| == 3
    ensures |p + "," + r + tail| == 4 + |r| + |tail|
    ensures (p + "," + r + tail)[..3] == p
    ensures forall k :: 0 <= k < 3 ==> (p + "," + r + tail)[k] == p[k]
    ensures (p + "," + r + tail)[3] == ','
    ensures (p + "," + r + tail)[4..] == r + tail
  {
  }

  /** The decoding of a frame whose template is found right behind its four-character head. */
  lemma DecodeAfterHead(text: string, tpl: Template, toks: seq<Decimal.Token>, tail: string)
    requires Shaped(tpl) && UnitsEndNumbers(tpl)
    requires |toks| == |tpl.codes| && ValidTokens(toks)
    requires TemplateFor(text) == Some(tpl)
    requires |text| >= 4 && text[4..] == Render(tpl, toks) + tail
    requires forall k :: 0 <= k < 4 ==> MatchAt(tpl, text[k..]).None?
    ensures Decode(text) == Sample(Zip(tpl.codes, Values(toks)))
  {
    MatchAtRender(tpl, toks, tail);
    SearchBehindHead(tpl, text, Some(toks));
    DecodeFound(text, tpl, toks);
  }

  lemma SearchBehindHead(tpl: Template, text: string, found: Option<seq<Decimal.Token>>)
    requires Shaped(tpl) && |text| >= 4
    requires forall k :: 0 <= k < 4 ==> MatchAt(tpl, text[k..]).None?
    requires MatchAt(tpl, text[4..]) == found && found.Some?
    ensures Search(tpl, text) == found
  {
    SearchFromLeftmost(tpl, text, 0, 4);
  }

  lemma DecodeFound(text: string, tpl: Template, toks: seq<Decimal.Token>)
    requires Shaped(tpl) && TemplateFor(text) == Some(tpl)
    requires Search(tpl, text) == Some(toks)
    ensures |toks| == |tpl.codes| && ValidTokens(toks)
    ensures Decode(text) == Sample(Zip(tpl.codes, Values(toks)))
  {
  }

  /** The fields `k`, `k + 1`, ... of a rendered template show every one of their unit characters. */
  lemma {:induction false} RenderFromShowsUnits(tpl: Template, k: nat, toks: seq<Decimal.Token>, m: nat)
    requires |tpl.codes| == |tpl.units| && k + |toks| == |tpl.codes| && |toks| > 0
    requires k <= m < |tpl.codes|
    ensures tpl.units[m] in RenderFrom(tpl, k, toks)
    decreases |toks|
  {
    var field := FieldText(tpl.codes[k], tpl.units[k], toks[0]);
    if m == k {
      FieldShowsUnit(tpl.codes[k], tpl.units[k], toks[0]);
      if |toks| > 1 {
        InLeft(tpl.units[m], field, "," + RenderFrom(tpl, k + 1, toks[1..]));
      }
    } else {
      RenderFromShowsUnits(tpl, k + 1, toks[1..], m);
      InRight(tpl.units[m], field + ",", RenderFrom(tpl, k + 1, toks[1..]));
    }
  }

  lemma FieldShowsUnit(code: string, unit: char, t: Decimal.Token)
    ensures unit in FieldText(code, unit, t)
  {
    var field := FieldText(code, unit, t);
    assert field[|field| - 1] == unit;
  }

  /** Wherever a template matches, every one of its unit characters is written. */
  lemma MatchAtShowsUnits(tpl: Template, s: string, c: char)
    requires Shaped(tpl) && c in tpl.units
    requires MatchAt(tpl, s).Some?
    ensures c in s
  {
    var toks := MatchAt(tpl, s).value;
    MatchAtSound(tpl, s);
    var m :| 0 <= m < |tpl.units| && tpl.units[m] == c;
    RenderFromShowsUnits(tpl, 0, toks, m);
    InPrefix(c, s, Render(tpl, toks));
  }

  /**
   A frame decodes to a sample only if it contains every unit character of its
   template; in particular a `0R0` frame without `#` never decodes.
   */
  lemma DecodeShowsUnits(text: string, c: char)
    requires KnownPrefix(text)
    requires c in TemplateFor(text).value.units
    requires c !in text
    ensures Decode(text) == Fail
  {
    var tpl := TemplateFor(text).value;
    TemplatesWellFormed(text);
    DecodeFails(text);
    if Decode(text) != Fail {
      var i :| 0 <= i <= |text| && MatchAt(tpl, text[i..]).Some?;
      MatchAtShowsUnits(tpl, text[i..], c);
    }
  }
}

=== FILE: frame_examples.dfy ===
/**
 Concrete frames run through the decoder model.
 */
module FrameExamples {
  import Decimal
  import opened Options
  import opened Strings
  import opened Frame

  /** A composite frame whose heater voltage ends in `N` lacks the `#` the `0R0` template asks for. */
  lemma CompositeWithHeatingStateFails(text: string)
    requires text == "0R0,Dm=045D,Sm=1.2M,Ta=20.5C," + "Ua=65.0P,Pa=1013.0H," + "Rc=0.00M,Th=20.0C,Vh=21.0N"
    ensures Decode(text) == Fail
  {
    var a, b, c := "0R0,Dm=045D,Sm=1.2M,Ta=20.5C,", "Ua=65.0P,Pa=1013.0H,", "Rc=0.00M,Th=20.0C,Vh=21.0N";
    CompositePieces(a, b, c);
    MissingUnit(text, a, b, c, '#', "0R0");
    Dispatch();
    assert Composite.units[7] == '#';
    DecodeShowsUnits(text, '#');
  }

  lemma CompositePieces(a: string, b: string, c: string)
    requires a == "0R0,Dm=045D,Sm=1.2M,Ta=20.5C," && b == "Ua=65.0P,Pa=1013.0H," && c == "Rc=0.00M,Th=20.0C,Vh=21.0N"
    ensures '#' !in a && '#' !in b && '#' !in c
    ensures |a| >= 3 && a[..3] == "0R0"
  {
  }

  /** A heating-voltage frame reporting `#` instead of `N` behind the heater voltage is not decoded. */
  lemma HeatingVoltageWithoutStateFails(text: string)
    requires text == "0R5,Th=25.9C,Vh=12.0#," + "Vs=12.1V,Vr=3.498V"
    ensures Decode(text) == Fail
  {
    var a, b := "0R5,Th=25.9C,Vh=12.0#,", "Vs=12.1V,Vr=3.498V";
    assert 'N' !in a && 'N' !in b;
    assert a[..3] == "0R5";
    assert text == a + b + "";
    MissingUnit(text, a, b, "", 'N', "0R5");
    Dispatch();
    assert HeatingVoltage.units[1] == 'N';
    DecodeShowsUnits(text, 'N');
  }

  /** A frame made of three pieces, none holding `ch`, with a known prefix in front. */
  lemma MissingUnit(text: string, a: string, b: string, c: string, ch: char, p: string)
    requires p == "0R0" || p == "0R2" || p == "0R3" || p == "0R5"
    requires text == a + b + c && |a| >= 3 && a[..3] == p
    requires ch !in a && ch !in b && ch !in c
    ensures ch !in text && TemplateFor(text) == TemplateFor(p)
  {
    assert text[..3] == a[..3];
    SamePrefix(p, text);
  }

  /** An environmental frame decodes to its three readings. */
  lemma EnvironmentalSample(text: string)
    requires text == "0R2,Ta=20.5C,Ua=65.0P,Pa=1013.0H"
    ensures Decode(text) == Sample(map["Ta" := 20.5, "Ua" := 65.0, "Pa" := 1013.0])
  {
    var toks := [Decimal.Token(false, "20", "5"), Decimal.Token(false, "65", "0"), Decimal.Token(false, "1013", "0")];
    EnvironmentalDecode(text, toks);
    EnvironmentalMap(toks);
  }

  lemma EnvironmentalMap(toks: seq<Decimal.Token>)
    requires toks == [Decimal.Token(false, "20", "5"), Decimal.Token(false, "65", "0"), Decimal.Token(false, "1013", "0")]
    ensures ValidTokens(toks)
    ensures Zip(Environmental.codes, Values(toks)) == map["Ta" := 20.5, "Ua" := 65.0, "Pa" := 1013.0]
  {
    EnvironmentalValues();
    ThreeValues(toks, [20.5, 65.0, 1013.0]);
    EnvironmentalZip();
  }

  lemma ThreeValues(toks: seq<Decimal.Token>, vs: seq<real>)
    requires |toks| == 3 && |vs| == 3 && ValidTokens(toks)
    requires Decimal.Value(toks[0]) == vs[0] && Decimal.Value(toks[1]) == vs[1] && Decimal.Value(toks[2]) == vs[2]
    ensures Values(toks) == vs
  {
  }

  lemma EnvironmentalDecode(text: string, toks: seq<Decimal.Token>)
    requires text == "0R2,Ta=20.5C,Ua=65.0P,Pa=1013.0H"
    requires toks == [Decimal.Token(false, "20", "5"), Decimal.Token(false, "65", "0"), Decimal.Token(false, "1013", "0")]
    ensures ValidTokens(toks) && Decode(text) == Sample(Zip(Environmental.codes, Values(toks)))
  {
    EnvironmentalText(text, toks);
    Dispatch();
    DecodeRender("0R2", toks, "");
    var framed := "0R2" + "," + Render(Environmental, toks) + "";
    assert Decode(framed) == Sample(Zip(Environmental.codes, Values(toks)));
  }

  lemma EnvironmentalZip()
    ensures Zip(Environmental.codes, [20.5, 65.0, 1013.0]) == map["Ta" := 20.5, "Ua" := 65.0, "Pa" := 1013.0]
  {
    ZipThree("Ta", "Ua", "Pa", 20.5, 65.0, 1013.0);
  }

  /** Three codes zipped with three values, as the dict the source builds. */
  lemma ZipThree(a: string, b: string, c: string, x: real, y: real, z: real)
    ensures Zip([a, b, c], [x, y, z]) == map[a := x, b := y, c := z]
  {
    assert [a, b, c][..2] == [a, b] && [x, y, z][..2] == [x, y];
    assert [a, b][..1] == [a] && [x, y][..1] == [x];
    assert [a][..0] == [] && [x][..0] == [];
  }

  lemma EnvironmentalText(text: string, toks: seq<Decimal.Token>)
    requires text == "0R2,Ta=20.5C,Ua=65.0P,Pa=1013.0H"
    requires toks == [Decimal.Token(false, "20", "5"), Decimal.Token(false, "65", "0"), Decimal.Token(false, "1013", "0")]
    ensures text == "0R2" + "," + Render(Environmental, toks) + ""
  {
    RenderThree(Environmental, toks);
    EnvironmentalFields(toks);
    EnvironmentalLiteral();
  }

  /** A three-field template renders as its three fields, comma-separated. */
  lemma RenderThree(tpl: Template, toks: seq<Decimal.Token>)
    requires Shaped(tpl) && |tpl.codes| == 3 && |toks| == 3
    ensures Render(tpl, toks)
         == FieldText(tpl.codes[0], tpl.units[0], toks[0]) + ","
            + FieldText(tpl.codes[1], tpl.units[1], toks[1]) + ","
            + FieldText(tpl.codes[2], tpl.units[2], toks[2])
  {
    var f0 := FieldText(tpl.codes[0], tpl.units[0], toks[0]);
    var f1 := FieldText(tpl.codes[1], tpl.units[1], toks[1]);
    var f2 := FieldText(tpl.codes[2], tpl.units[2], toks[2]);
    assert toks[1..][1..] == toks[2..] && toks[2..] == [toks[2]];
    assert RenderFrom(tpl, 2, toks[2..]) == f2;
    assert RenderFrom(tpl, 1, toks[1..]) == f1 + "," + f2;
    assert RenderFrom(tpl, 0, toks) == f0 + "," + (f1 + "," + f2);
    assert f0 + "," + (f1 + "," + f2) == f0 + "," + f1 + "," + f2;
  }

  lemma EnvironmentalFields(toks: seq<Decimal.Token>)
    requires toks == [Decimal.Token(false, "20", "5"), Decimal.Token(false, "65", "0"), Decimal.Token(false, "1013", "0")]
    ensures FieldText(Environmental.codes[0], Environmental.units[0], toks[0]) == "Ta=20.5C"
    ensures FieldText(Environmental.codes[1], Environmental.units[1], toks[1]) == "Ua=65.0P"
    ensures FieldText(Environmental.codes[2], Environmental.units[2], toks[2]) == "Pa=1013.0H"
  {
    assert Decimal.Render(toks[0]) == "20.5";
    assert Decimal.Render(toks[1]) == "65.0";
    assert Decimal.Render(toks[2]) == "1013.0";
  }

  lemma EnvironmentalLiteral()
    ensures "0R2" + "," + ("Ta=20.5C" + "," + "Ua=65.0P" + "," + "Pa=1013.0H") + "" == "0R2,Ta=20.5C,Ua=65.0P,Pa=1013.0H"
  {
  }

  lemma EnvironmentalValues()
    ensures Decimal.Value(Decimal.Token(false, "20", "5")) == 20.5
    ensures Decimal.Value(Decimal.Token(false, "65", "0")) == 65.0
    ensures Decimal.Value(Decimal.Token(false, "1013", "0")) == 1013.0
  {
    TemperatureValue();
    HumidityValue();
    PressureValue();
  }

  lemma TemperatureValue()
    ensures Decimal.Value(Decimal.Token(false, "20", "5")) == 20.5
  {
    assert "20" + "5" == "205" && "205"[..2] == "20" && "20"[..1] == "2";
    assert Decimal.DigitsValue("205") == 205;
    assert Decimal.Pow10(1) == 10;
  }

  lemma HumidityValue()
    ensures Decimal.Value(Decimal.Token(false, "65", "0")) == 65.0
  {
    assert "65" + "0" == "650" && "650"[..2] == "65" && "65"[..1] == "6";
    assert Decimal.DigitsValue("650") == 650;
    assert Decimal.Pow10(1) == 10;
  }

  lemma PressureValue()
    ensures Decimal.Value(Decimal.Token(false, "1013", "0")) == 1013.0
  {
    assert "1013" + "0" == "10130" && "10130"[..4] == "1013" && "1013"[..3] == "101" && "101"[..2] == "10" && "10"[..1] == "1";
    assert Decimal.DigitsValue("10130") == 10130;
    assert Decimal.Pow10(1) == 10;
  }
}

=== FILE: logger.dfy ===
/**
 The stand-alone serial logger (read_wxt530.py): it optionally writes a query,
 reads one line, stamps it with the local time and appends it to a CSV file
 as one row.

 The serial port, the clock, the file system and the sleep between reads are
 not modelled: the line read and the timestamp text are parameters, and a
 run is the list of rows appended over a finite list of reads.
 */
module Logger {
  import opened Options

  /**
   The characters `str.strip()` removes: Python's whitespace, i.e. the ASCII
   tab, line feed, vertical tab, form feed, carriage return, the four
   separators 0x1C-0x1F, space, and the Unicode spaces and separators.
   */
  predicate IsSpace(c: char) {
    var n := c as int;
    (0x09 <= n <= 0x0D) || (0x1C <= n <= 0x20) || n == 0x85 || n == 0xA0 || n == 0x1680
    || (0x2000 <= n <= 0x200A) || n == 0x2028 || n == 0x2029 || n == 0x202F || n == 0x205F || n == 0x3000
  }

  predicate AllSpace(s: string) {
    forall i :: 0 <= i < |s| ==> IsSpace(s[i])
  }

  lemma SpaceCons(c: char, s: string)
    requires IsSpace(c) && AllSpace(s)
    ensures AllSpace([c] + s)
  {
    assert forall i :: 1 <= i < |s| + 1 ==> ([c] + s)[i] == s[i - 1];
  }

  /** `s` without its leading whitespace. */
  function LStrip(s: string): (r: string)
    ensures |r| <= |s| && r == s[|s| - |r|..]
    ensures AllSpace(s[..|s| - |r|])
    ensures |r| > 0 ==> !IsSpace(r[0])
  {
    if |s| > 0 && IsSpace(s[0]) then
      var t := s[1..];
      var r := LStrip(t);
      assert t[|t| - |r|..] == s[|s| - |r|..];
      assert s[..|s| - |r|] == [s[0]] + t[..|t| - |r|];
      SpaceCons(s[0], t[..|t| - |r|]);
      r
    else s
  }

  /** `s` without its trailing whitespace. */
  function RStrip(s: string): (r: string)
    ensures |r| <= |s| && r == s[..|r|]
    ensures AllSpace(s[|r|..])
    ensures |r| > 0 ==> !IsSpace(r[|r| - 1])
  {
    if |s| > 0 && IsSpace(s[|s| - 1]) then
      var r := RStrip(s[..|s| - 1]);
      assert s[|r|..] == s[..|s| - 1][|r|..] + [s[|s| - 1]];
      r
    else s
  }

  /** `str.strip()`: both ends' whitespace removed; the result neither starts nor ends with whitespace. */
  function Strip(s: string): (r: string)
    ensures |r| <= |s|
    ensures |r| > 0 ==> !IsSpace(r[0]) && !IsSpace(r[|r| - 1])
  {
    var l := LStrip(s);
    var r := RStrip(l);
    assert |r| > 0 ==> r[0] == l[0];
    r
  }

  /** What `str.strip()` removes is whitespace on both sides of the result: `s` is lead + result + trail. */
  lemma StripDecomposes(s: string, l: nat, r: string)
    requires l == |s| - |LStrip(s)| && r == Strip(s)
    ensures l + |r| <= |s| && s == s[..l] + r + s[l + |r|..]
    ensures AllSpace(s[..l]) && AllSpace(s[l + |r|..])
  {
    var lt := LStrip(s);
    assert r == RStrip(lt);
    var x := lt[|r|..];
    PrefixSplit(lt, r);
    SliceAround(s, l, r, x);
    assert AllSpace(s[..l]);
    assert AllSpace(lt[|r|..]);
  }

  lemma PrefixSplit(t: string, r: string)
    requires |r| <= |t| && r == t[..|r|]
    ensures t == r + t[|r|..]
  {
  }

  lemma SliceAround(s: string, l: nat, r: string, x: string)
    requires l <= |s| && s[l..] == r + x
    ensures s == s[..l] + r + x && x == s[l + |r|..]
  {
    assert s == s[..l] + s[l..];
  }

  /** Leading whitespace in front of a text that starts with a non-space is what `LStrip` drops. */
  lemma {:induction false} LStripPrefix(a: string, m: string)
    requires AllSpace(a)
    requires |m| == 0 || !IsSpace(m[0])
    ensures LStrip(a + m) == m
    decreases |a|
  {
    if |a| == 0 {
      assert a + m == m;
    } else {
      assert (a + m)[1..] == a[1..] + m;
      LStripPrefix(a[1..], m);
    }
  }

  /** Trailing whitespace behind a text that ends with a non-space is what `RStrip` drops. */
  lemma {:induction false} RStripSuffix(m: string, b: string)
    requires AllSpace(b)
    requires |m| == 0 || !IsSpace(m[|m| - 1])
    ensures RStrip(m + b) == m
    decreases |b|
  {
    if |b| == 0 {
      assert m + b == m;
    } else {
      var n := |b| - 1;
      assert (m + b)[..|m + b| - 1] == m + b[..n];
      RStripSuffix(m, b[..n]);
    }
  }

  /**
   `str.strip()` is characterised by its result: whitespace around a text
   that neither starts nor ends with whitespace strips to exactly that text.
   */
  lemma StripUnique(a: string, m: string, b: string)
    requires AllSpace(a) && AllSpace(b)
    requires |m| == 0 || (!IsSpace(m[0]) && !IsSpace(m[|m| - 1]))
    ensures Strip(a + m + b) == m
  {
    assert a + m + b == a + (m + b);
    if |m| == 0 {
      assert a + m + b == a + b;
      assert AllSpace(a + b) by {
        assert forall i :: 0 <= i < |a + b| ==> (a + b)[i] == (if i < |a| then a[i] else b[i - |a|]);
      }
      StripAllSpace(a + b);
    } else {
      LStripPrefix(a, m + b);
      RStripSuffix(m, b);
    }
  }

  /** Text made only of whitespace strips on the left to nothing. */
  lemma {:induction false} StripAllSpace(s: string)
    requires AllSpace(s)
    ensures LStrip(s) == []
    decreases |s|
  {
    if |s| > 0 {
      StripAllSpace(s[1..]);
    }
  }

  /** Stripping twice strips no more than stripping once. */
  lemma StripIdempotent(s: string)
    ensures Strip(Strip(s)) == Strip(s)
  {
    var r := Strip(s);
    StripUnique([], r, []);
    assert [] + r + [] == r;
  }

  /** Text after a non-space keeps its leading part when only its trailing whitespace is removed. */
  lemma {:induction false} RStripAfter(a: string, b: string)
    requires |a| > 0 && !IsSpace(a[|a| - 1])
    ensures RStrip(a + b) == a + RStrip(b)
    decreases |b|
  {
    if |b| == 0 {
      assert a + b == a;
      assert a + RStrip(b) == a;
    } else if IsSpace(b[|b| - 1]) {
      var n := |b| - 1;
      assert (a + b)[..|a + b| - 1] == a + b[..n];
      RStripAfter(a, b[..n]);
    }
  }

  /** Position of the first comma of `s`, or `|s|` when it has none. */
  function CommaIndex(s: string): (i: nat)
    ensures i <= |s|
    ensures i < |s| ==> s[i] == ','
    ensures ',' !in s[..i]
  {
    if |s| == 0 || s[0] == ',' then 0
    else
      var i := 1 + CommaIndex(s[1..]);
      assert s[..i] == [s[0]] + s[1..][..i - 1];
      i
  }

  lemma CommaIndexOf(p: string, rest: string)
    requires ',' !in p
    ensures CommaIndex(p + "," + rest) == |p|
    decreases |p|
  {
    if |p| > 0 {
      assert (p + "," + rest)[1..] == p[1..] + "," + rest;
      CommaIndexOf(p[1..], rest);
    }
  }

  /** `str.split(',')`: the text between commas; never empty, and no part holds a comma. */
  function Split(s: string): (parts: seq<string>)
    ensures |parts| >= 1
    ensures forall k :: 0 <= k < |parts| ==> ',' !in parts[k]
    decreases |s|
  {
    var i := CommaIndex(s);
    if i == |s| then
      assert s[..i] == s;
      [s]
    else [s[..i]] + Split(s[i + 1..])
  }

  /** `','.join(parts)`, the inverse of `Split`. */
  function Join(parts: seq<string>): string
    requires |parts| >= 1
  {
    if |parts| == 1 then parts[0] else parts[0] + "," + Join(parts[1..])
  }

  /** Splitting and joining again gives the text back. */
  lemma {:induction false} JoinSplit(s: string)
    ensures Join(Split(s)) == s
    decreases |s|
  {
    var i := CommaIndex(s);
    if i < |s| {
      JoinSplit(s[i + 1..]);
      assert s == s[..i] + "," + s[i + 1..];
    } else {
      assert s[..i] == s;
    }
  }

  /** Joining parts without commas and splitting again gives the parts back. */
  lemma {:induction false} SplitJoin(parts: seq<string>)
    requires |parts| >= 1
    requires forall k :: 0 <= k < |parts| ==> ',' !in parts[k]
    ensures Split(Join(parts)) == parts
    decreases |parts|
  {
    if |parts| == 1 {
      assert ',' !in parts[0];
      NoCommaSplit(parts[0]);
    } else {
      var rest := Join(parts[1..]);
      assert Join(parts) == parts[0] + "," + rest;
      SplitStamped(parts[0], rest);
      SplitJoin(parts[1..]);
      assert parts == [parts[0]] + parts[1..];
    }
  }

  lemma NoCommaSplit(s: string)
    requires ',' !in s
    ensures Split(s) == [s]
  {
  }

  /** The time text the logger prefixes: non-empty, no comma, no leading whitespace (strftime's `%Y%m%dT...`). */
  predicate StampLike(stamp: string) {
    |stamp| > 0 && ',' !in stamp && !IsSpace(stamp[0])
  }

  /** The query written to the instrument before a read (lines 15-17): only when polling. */
  function QueryBytes(poll: bool, query: string): (w: Option<string>)
    ensures w.Some? <==> poll
    ensures w.Some? ==> |w.value| == |query| + 2 && w.value[..|query|] == query && w.value[|query|..] == "\r\n"
  {
    if poll then Some(query + "\r\n") else None
  }

  /**
   `pollsave` (lines 13-31) given the line read and the time text: nothing for
   an empty read, otherwise the time, a comma and the line.
   */
  function PollSave(stamp: string, data: string): (r: Option<string>)
    ensures r.None? <==> |data| == 0
    ensures r.Some? ==> |r.value| == |stamp| + 1 + |data|
  {
    if |data| == 0 then None else Some(stamp + "," + data)
  }

  /** The stamped record splits at its first comma back into the time and the line read. */
  lemma PollSaveSplits(stamp: string, data: string)
    requires |data| > 0 && ',' !in stamp
    ensures var r := PollSave(stamp, data).value;
            CommaIndex(r) == |stamp| && r[..|stamp|] == stamp && r[|stamp| + 1..] == data
  {
    CommaIndexOf(stamp, data);
  }

  predicate IsNetcdf(output: string) {
    output == "nc" || output == "netcdf"
  }

  /** The output file name (lines 37-42): `WXT536_<site>_<time>` and `.nc` or `.csv`. */
  function Filename(site: string, stamp: string, output: string): (f: string)
    ensures |f| > |"WXT536_" + site + "_" + stamp|
    ensures f[..|"WXT536_" + site + "_" + stamp|] == "WXT536_" + site + "_" + stamp
    ensures |f| == |"WXT536_" + site + "_" + stamp| + (if IsNetcdf(output) then 3 else 4)
  {
    "WXT536_" + site + "_" + stamp + (if IsNetcdf(output) then ".nc" else ".csv")
  }

  /** The extension tells the format apart: the name ends in `.nc` exactly for `nc` and `netcdf`. */
  lemma FilenameExtension(site: string, stamp: string, output: string)
    ensures var f := Filename(site, stamp, output);
            (IsNetcdf(output) <==> f[|f| - 3..] == ".nc") && (!IsNetcdf(output) <==> f[|f| - 4..] == ".csv")
  {
    var f := Filename(site, stamp, output);
    var n := |"WXT536_" + site + "_" + stamp|;
    if IsNetcdf(output) {
      assert f[n..] == ".nc";
      assert f[|f| - 4..][0] == f[n - 1];
      assert f[|f| - 4..][1] == '.';
    } else {
      assert f[n..] == ".csv";
      assert f[|f| - 3..][1] == 's';
    }
  }

  /** The row `csv.writer.writerow` receives for a stamped record (line 57): `record.strip().split(',')`. */
  function CsvRow(record: string): (row: seq<string>)
    ensures |row| >= 1
  {
    Split(Strip(record))
  }

  /** Joining a row's fields gives back the stripped record: no character is lost or added. */
  lemma CsvRowJoins(record: string)
    ensures Join(CsvRow(record)) == Strip(record)
  {
    JoinSplit(Strip(record));
  }

  /**
   The row of a stamped record starts with the time and continues with the
   fields of the line read, its trailing whitespace (the line end) removed.
   */
  lemma CsvRowStamped(stamp: string, data: string)
    requires StampLike(stamp)
    ensures CsvRow(stamp + "," + data) == [stamp] + Split(RStrip(data))
  {
    StripStamped(stamp, data);
    SplitStamped(stamp, RStrip(data));
  }

  /** A record starting with a non-space loses only its trailing whitespace to `strip()`. */
  lemma StripStamped(stamp: string, data: string)
    requires StampLike(stamp)
    ensures Strip(stamp + "," + data) == stamp + "," + RStrip(data)
  {
    var a := stamp + ",";
    assert stamp + "," + data == a + data;
    LStripPrefix([], a + data);
    assert [] + (a + data) == a + data;
    RStripAfter(a, data);
  }

  /** The first field of a record is the text before its first comma. */
  lemma SplitStamped(stamp: string, rest: string)
    requires ',' !in stamp
    ensures Split(stamp + "," + rest) == [stamp] + Split(rest)
  {
    var s := stamp + "," + rest;
    CommaIndexOf(stamp, rest);
    assert s[..|stamp|] == stamp;
    assert s[|stamp| + 1..] == rest;
  }

  /** One read of the logger's loop: the time text and the line read (possibly empty on a timeout). */
  datatype Read = Read(stamp: string, data: string)

  /** What a run of the logger did: the queries written and the rows appended to the file. */
  datatype LogRun = LogRun(queries: seq<string>, rows: seq<seq<string>>)

  /** The number of reads that returned something. */
  function NonEmpty(history: seq<Read>): (n: nat)
    ensures n <= |history|
  {
    if |history| == 0 then 0
    else (if |history[0].data| > 0 then 1 else 0) + NonEmpty(history[1..])
  }

  /**
   `main`'s loop (lines 44-60) over a finite list of reads: a query per read
   when polling, and for the CSV format one row per non-empty read; the
   netCDF format writes nothing.
   */
  function LoggerRun(poll: bool, query: string, output: string, history: seq<Read>): (r: LogRun)
    ensures |r.queries| == (if poll then |history| else 0)
    ensures forall i :: 0 <= i < |r.queries| ==> r.queries[i] == query + "\r\n"
    ensures IsNetcdf(output) ==> r.rows == []
    ensures !IsNetcdf(output) ==> |r.rows| == NonEmpty(history)
  {
    if |history| == 0 then LogRun([], [])
    else
      var rest := LoggerRun(poll, query, output, history[1..]);
      var w := QueryBytes(poll, query);
      var q := if w.Some? then [w.value] else [];
      var saved := PollSave(history[0].stamp, history[0].data);
      var row := if saved.Some? && !IsNetcdf(output) then [CsvRow(saved.value)] else [];
      LogRun(q + rest.queries, row + rest.rows)
  }

  /**
   Every row the CSV logger appends starts with the time of its read and has
   at least one more field: the rows are the non-empty reads, in order.
   */
  lemma {:induction false} LoggerRowsStamped(poll: bool, query: string, output: string, history: seq<Read>,
                                             r: LogRun, kept: seq<Read>)
    requires forall i :: 0 <= i < |history| ==> StampLike(history[i].stamp)
    requires r == LoggerRun(poll, query, output, history) && !IsNetcdf(output)
    requires kept == Kept(history)
    ensures |r.rows| == |kept|
    ensures forall k :: 0 <= k < |r.rows| ==>
              |r.rows[k]| >= 2 && r.rows[k] == [kept[k].stamp] + Split(RStrip(kept[k].data))
    decreases |history|
  {
    if |history| > 0 {
      var rest := LoggerRun(poll, query, output, history[1..]);
      var more := Kept(history[1..]);
      LoggerRowsStamped(poll, query, output, history[1..], rest, more);
      LoggerRunStep(poll, query, output, history);
      if |history[0].data| > 0 {
        CsvRowStamped(history[0].stamp, history[0].data);
        RowsCons(r.rows, rest.rows, kept, more, history[0]);
      } else {
        assert r.rows == rest.rows && kept == more;
      }
    }
  }

  /** One step of the logger's loop: the first read's row, if any, then the rows of the others. */
  lemma LoggerRunStep(poll: bool, query: string, output: string, history: seq<Read>)
    requires |history| > 0 && !IsNetcdf(output)
    ensures LoggerRun(poll, query, output, history).rows
         == (if |history[0].data| > 0 then [CsvRow(history[0].stamp + "," + history[0].data)] else [])
            + LoggerRun(poll, query, output, history[1..]).rows
  {
  }

  lemma RowsCons(rows: seq<seq<string>>, rest: seq<seq<string>>, kept: seq<Read>, more: seq<Read>, first: Read)
    requires rows == [[first.stamp] + Split(RStrip(first.data))] + rest
    requires kept == [first] + more
    requires |rest| == |more|
    requires forall k :: 0 <= k < |rest| ==> |rest[k]| >= 2 && rest[k] == [more[k].stamp] + Split(RStrip(more[k].data))
    ensures |rows| == |kept|
    ensures forall k :: 0 <= k < |rows| ==> |rows[k]| >= 2 && rows[k] == [kept[k].stamp] + Split(RStrip(kept[k].data))
  {
    assert forall k :: 1 <= k < |rows| ==> rows[k] == rest[k - 1] && kept[k] == more[k - 1];
  }

  /** The reads that returned something, in order. */
  function Kept(history: seq<Read>): (kept: seq<Read>)
    ensures |kept| == NonEmpty(history)
    ensures forall k :: 0 <= k < |kept| ==> |kept[k].data| > 0 && kept[k] in history
  {
    if |history| == 0 then []
    else if |history[0].data| > 0 then [history[0]] + Kept(history[1..])
    else Kept(history[1..])
  }

  /** A single read is kept exactly when it returned something. */
  lemma KeptOne(read: Read)
    ensures Kept([read]) == (if |read.data| > 0 then [read] else [])
  {
    assert [read][1..] == [];
  }

  /**
   Keeping distributes over the order of reads: the kept reads of `a + b` are
   those of `a` followed by those of `b`. With `KeptOne` this fixes `Kept`
   completely: every non-empty read, each once, in the order read.
   */
  lemma {:induction false} KeptAppend(a: seq<Read>, b: seq<Read>)
    ensures Kept(a + b) == Kept(a) + Kept(b)
    decreases |a|
  {
    if |a| > 0 {
      assert (a + b)[0] == a[0];
      assert (a + b)[1..] == a[1..] + b;
      KeptAppend(a[1..], b);
    } else {
      assert a + b == b;
    }
  }
}

=== FILE: options.dfy ===
/** The optional-value datatype used throughout the model. */
module Options {

  /** `None` stands for Python's `None` (or "nothing matched"), `Some` for a present value. */
  datatype Option<+T> = None | Some(value: T)
}

=== FILE: publish.dfy ===
/**
 The publish projection of `start_publishing` (app.py:69-138) and the polling
 loop of `main` (app.py:178-192).

 Publishing is modelled as emitting records into a list: `plugin.publish` is
 replaced by appending a `Record`, and the serial line and the timestamp of a
 cycle are inputs. A cycle that raises keeps the records it emitted before the
 raise and reports the error.
 */
module Publish {
  import opened Options
  import Strings
  import Frame

  datatype Scope = Node | Beehive

  /** The fixed metadata every record carries (app.py:112-113, 133-134). */
  const Sensor := "vaisala-wxt536"
  const Missing := "-9999.9"

  /** One call of `plugin.publish`. */
  datatype Record = Record(name: string, value: real, units: string, sensor: string,
                           missing: string, scope: Scope, timestamp: int)

  /**
   Why a cycle stops: a publish name whose key is in the sample has no units
   entry (`KeyError`), or the frame's prefix was known but its template was not
   found, so iterating the search result raised.
   */
  datatype Error = KeyError(key: string) | NotIterable

  /** The records a cycle emitted and the error it raised, if any. */
  datatype Emission = Emission(records: seq<Record>, error: Option<Error>)

  /** The publish-name table: (publish name, sample key) pairs in table order. */
  type Names = seq<(string, string)>

  /** The entries of `names` whose key the sample holds, in table order. */
  function Present(names: Names, sample: map<string, real>): (p: Names)
    ensures |p| <= |names|
  {
    if |names| == 0 then []
    else if names[0].1 in sample then [names[0]] + Present(names[1..], sample)
    else Present(names[1..], sample)
  }

  /** `Present` keeps exactly the entries whose key the sample holds. */
  lemma {:induction false} PresentMembers(names: Names, sample: map<string, real>, p: Names)
    requires p == Present(names, sample)
    ensures forall i :: 0 <= i < |p| ==> p[i] in names && p[i].1 in sample
    ensures forall i :: 0 <= i < |names| && names[i].1 in sample ==> names[i] in p
  {
    if |names| > 0 {
      var q := Present(names[1..], sample);
      PresentMembers(names[1..], sample, q);
      assert forall i :: 1 <= i < |names| ==> names[i] == names[1..][i - 1];
      if names[0].1 in sample {
        assert p == [names[0]] + q;
        assert forall i :: 1 <= i < |p| ==> p[i] == q[i - 1];
      }
    }
  }

  /** An entry whose key the sample lacks is passed over. */
  lemma PresentSkip(names: Names, sample: map<string, real>)
    requires |names| > 0 && names[0].1 !in sample
    ensures Present(names, sample) == Present(names[1..], sample)
  {
  }

  /** An entry whose key the sample holds is kept, ahead of the later ones. */
  lemma PresentKeep(names: Names, sample: map<string, real>)
    requires |names| > 0 && names[0].1 in sample
    ensures Present(names, sample) == [names[0]] + Present(names[1..], sample)
  {
  }

  /** A run of entries whose keys the sample lacks is passed over. */
  lemma {:induction false} PresentSkipRun(names: Names, sample: map<string, real>, k: nat)
    requires k <= |names|
    requires forall i :: 0 <= i < k ==> names[i].1 !in sample
    ensures Present(names, sample) == Present(names[k..], sample)
  {
    if k > 0 {
      PresentSkip(names, sample);
      TailSlices(names, k);
      PresentSkipRun(names[1..], sample, k - 1);
    }
  }

  /** A run of entries whose keys the sample holds is kept whole. */
  lemma {:induction false} PresentKeepRun(names: Names, sample: map<string, real>, k: nat)
    requires k <= |names|
    requires forall i :: 0 <= i < k ==> names[i].1 in sample
    ensures Present(names, sample) == names[..k] + Present(names[k..], sample)
  {
    if k > 0 {
      PresentKeep(names, sample);
      TailSlices(names, k);
      PresentKeepRun(names[1..], sample, k - 1);
      Strings.Assoc([names[0]], names[1..][..k - 1], Present(names[k..], sample));
    }
  }

  lemma TailSlices<T>(xs: seq<T>, k: nat)
    requires 0 < k <= |xs|
    ensures xs[1..][k - 1..] == xs[k..]
    ensures xs[..k] == [xs[0]] + xs[1..][..k - 1]
    ensures forall i :: 0 <= i < k - 1 ==> xs[1..][i] == xs[i + 1]
  {
  }

  /** The record published for one table entry. */
  function RecordFor(entry: (string, string), sample: map<string, real>, units: map<string, string>,
                     scope: Scope, timestamp: int): Record
    requires entry.1 in sample && entry.0 in units
  {
    Record(entry.0, sample[entry.1], units[entry.0], Sensor, Missing, scope, timestamp)
  }

  /**
   One scope's loop (app.py:100-117 for the node, 121-138 for beehive): the
   entries whose key the sample holds are published in table order, until the
   first of them whose name has no units entry raises `KeyError`.
   */
  function PublishScope(names: Names, sample: map<string, real>, units: map<string, string>,
                        scope: Scope, timestamp: int): (e: Emission)
    ensures e.error.None? <==> forall i :: 0 <= i < |names| && names[i].1 in sample ==> names[i].0 in units
    ensures e.error.Some? ==> e.error.value.KeyError? && e.error.value.key !in units
  {
    if |names| == 0 then Emission([], None)
    else
      var entry := names[0];
      var rest := PublishScope(names[1..], sample, units, scope, timestamp);
      assert forall i :: 1 <= i < |names| ==> names[i] == names[1..][i - 1];
      if entry.1 !in sample then rest
      else if entry.0 !in units then Emission([], Some(KeyError(entry.0)))
      else Emission([RecordFor(entry, sample, units, scope, timestamp)] + rest.records, rest.error)
  }

  /**
   The records of a scope's loop are the records of the entries whose key the
   sample holds, in table order, as far as the loop got.
   */
  lemma {:induction false} PublishScopeRecords(names: Names, sample: map<string, real>, units: map<string, string>,
                                               scope: Scope, timestamp: int, e: Emission, p: Names)
    requires e == PublishScope(names, sample, units, scope, timestamp) && p == Present(names, sample)
    ensures |e.records| <= |p|
    ensures forall j :: 0 <= j < |e.records| ==>
              p[j].1 in sample && p[j].0 in units && e.records[j] == RecordFor(p[j], sample, units, scope, timestamp)
    decreases |names|
  {
    if |names| > 0 {
      var rest := PublishScope(names[1..], sample, units, scope, timestamp);
      var q := Present(names[1..], sample);
      PublishScopeRecords(names[1..], sample, units, scope, timestamp, rest, q);
      if names[0].1 !in sample {
        PresentSkip(names, sample);
        assert e == rest;
      } else if names[0].0 in units {
        PresentKeep(names, sample);
        var head := RecordFor(names[0], sample, units, scope, timestamp);
        assert e.records == [head] + rest.records;
        forall j | 0 <= j < |e.records|
          ensures p[j].1 in sample && p[j].0 in units && e.records[j] == RecordFor(p[j], sample, units, scope, timestamp)
        {
          if j > 0 {
            assert p[j] == q[j - 1] && e.records[j] == rest.records[j - 1];
          }
        }
      }
    }
  }

  /**
   The loop publishes every entry whose key the sample holds unless it raises;
   when it raises, it is at the first such entry without a units entry, named
   in the `KeyError`.
   */
  lemma {:induction false} PublishScopeStops(names: Names, sample: map<string, real>, units: map<string, string>,
                                             scope: Scope, timestamp: int, e: Emission, p: Names)
    requires e == PublishScope(names, sample, units, scope, timestamp) && p == Present(names, sample)
    ensures e.error.None? ==> |e.records| == |p|
    ensures e.error.Some? ==> |e.records| < |p| && p[|e.records|].0 !in units
                              && e.error == Some(KeyError(p[|e.records|].0))
    decreases |names|
  {
    if |names| > 0 {
      var rest := PublishScope(names[1..], sample, units, scope, timestamp);
      var q := Present(names[1..], sample);
      PublishScopeStops(names[1..], sample, units, scope, timestamp, rest, q);
      if names[0].1 !in sample {
        assert p == q && e == rest;
      } else if names[0].0 !in units {
        assert p == [names[0]] + q;
        assert e == Emission([], Some(KeyError(names[0].0)));
      } else {
        assert p == [names[0]] + q;
        assert e == Emission([RecordFor(names[0], sample, units, scope, timestamp)] + rest.records, rest.error);
        assert |e.records| == 1 + |rest.records|;
        assert rest.error.Some? ==> p[|e.records|] == q[|rest.records|];
      }
    }
  }

  /**
   A scope's loop that meets an entry without units after `m` entries with
   units raises there, having published exactly those `m` records.
   */
  lemma PublishScopeRaisesAt(names: Names, sample: map<string, real>, units: map<string, string>,
                             scope: Scope, timestamp: int, e: Emission, p: Names, m: nat)
    requires e == PublishScope(names, sample, units, scope, timestamp) && p == Present(names, sample)
    requires m < |p| && p[m].0 !in units
    requires forall j :: 0 <= j < m ==> p[j].0 in units
    ensures e.error == Some(KeyError(p[m].0)) && |e.records| == m
    ensures forall j :: 0 <= j < m ==>
              p[j].1 in sample && e.records[j] == RecordFor(p[j], sample, units, scope, timestamp)
  {
    PublishScopeStops(names, sample, units, scope, timestamp, e, p);
    PublishScopeRecords(names, sample, units, scope, timestamp, e, p);
  }

  /** Python truthiness of the decoder's result: `None` and an empty dict are false. */
  predicate Truthy(decoded: Frame.DecodeResult) {
    decoded.Sample? && |decoded.values| > 0
  }

  /**
   One call of `start_publishing` (app.py:69-138) on an already-read frame:
   decode it, then publish the node scope if its interval is positive and the
   beehive scope if its interval is positive, every record stamped with the one
   timestamp of the cycle.
   */
  function PublishCycle(decoded: Frame.DecodeResult, nodeInterval: real, beehiveInterval: real,
                        names: Names, units: map<string, string>, timestamp: int): (e: Emission)
    ensures decoded.Fail? ==> e == Emission([], Some(NotIterable))
    ensures !decoded.Fail? && !Truthy(decoded) ==> e == Emission([], None)
    ensures forall i :: 0 <= i < |e.records| ==>
              e.records[i].timestamp == timestamp && e.records[i].sensor == Sensor && e.records[i].missing == Missing
    ensures forall i, j :: 0 <= i < j < |e.records| && e.records[i].scope == Beehive ==> e.records[j].scope == Beehive
    ensures nodeInterval <= 0.0 ==> forall i :: 0 <= i < |e.records| ==> e.records[i].scope == Beehive
    ensures beehiveInterval <= 0.0 ==> forall i :: 0 <= i < |e.records| ==> e.records[i].scope == Node
    ensures e.error.Some? && e.error != Some(NotIterable) ==> Truthy(decoded)
  {
    match decoded
    case Fail => Emission([], Some(NotIterable))
    case NoSample => Emission([], None)
    case Sample(sample) =>
      if |sample| == 0 then Emission([], None)
      else
        ScopeStamped(names, sample, units, Node, timestamp, PublishScope(names, sample, units, Node, timestamp));
        ScopeStamped(names, sample, units, Beehive, timestamp, PublishScope(names, sample, units, Beehive, timestamp));
        var node := if nodeInterval > 0.0 then PublishScope(names, sample, units, Node, timestamp) else Emission([], None);
        if node.error.Some? then node
        else
          var beehive := if beehiveInterval > 0.0 then PublishScope(names, sample, units, Beehive, timestamp)
                         else Emission([], None);
          Emission(node.records + beehive.records, beehive.error)
  }

  /** The records of one scope, in order. */
  function Only(records: seq<Record>, scope: Scope): (r: seq<Record>)
    ensures |r| <= |records|
    ensures forall i :: 0 <= i < |r| ==> r[i].scope == scope && r[i] in records
  {
    if |records| == 0 then []
    else if records[0].scope == scope then [records[0]] + Only(records[1..], scope)
    else Only(records[1..], scope)
  }

  lemma {:induction false} OnlyAppend(a: seq<Record>, b: seq<Record>, scope: Scope)
    ensures Only(a + b, scope) == Only(a, scope) + Only(b, scope)
    decreases |a|
  {
    if |a| == 0 {
      assert a + b == b;
    } else {
      assert (a + b)[1..] == a[1..] + b;
      OnlyAppend(a[1..], b, scope);
    }
  }

  lemma {:induction false} OnlyAll(records: seq<Record>, scope: Scope)
    requires forall i :: 0 <= i < |records| ==> records[i].scope == scope
    ensures Only(records, scope) == records
    ensures Only(records, if scope == Node then Beehive else Node) == []
    decreases |records|
  {
    if |records| > 0 {
      OnlyAll(records[1..], scope);
    }
  }

  /**
   The node records of a cycle are exactly the node loop's records when the
   node interval is positive, and the beehive records are exactly the beehive
   loop's records when its interval is positive and the node loop did not raise.
   */
  lemma CycleScopes(sample: map<string, real>, nodeInterval: real, beehiveInterval: real,
                    names: Names, units: map<string, string>, timestamp: int,
                    e: Emission, node: Emission, beehive: Emission)
    requires |sample| > 0
    requires e == PublishCycle(Frame.Sample(sample), nodeInterval, beehiveInterval, names, units, timestamp)
    requires node == PublishScope(names, sample, units, Node, timestamp)
    requires beehive == PublishScope(names, sample, units, Beehive, timestamp)
    ensures Only(e.records, Node) == (if nodeInterval > 0.0 then node.records else [])
    ensures Only(e.records, Beehive)
         == (if beehiveInterval > 0.0 && (nodeInterval <= 0.0 || node.error.None?) then beehive.records else [])
    ensures e.error == (if nodeInterval > 0.0 && node.error.Some? then node.error
                        else if beehiveInterval > 0.0 then beehive.error else None)
  {
    ScopeStamped(names, sample, units, Node, timestamp, node);
    ScopeStamped(names, sample, units, Beehive, timestamp, beehive);
    var n := if nodeInterval > 0.0 then node.records else [];
    var b := if beehiveInterval > 0.0 && (nodeInterval <= 0.0 || node.error.None?) then beehive.records else [];
    assert e.records == n + b;
    OnlyAll(n, Node);
    OnlyAll(b, Beehive);
    OnlyAppend(n, b, Node);
    OnlyAppend(n, b, Beehive);
    assert n + [] == n;
    assert [] + b == b;
  }

  /** Every record of a scope's loop carries that scope's tag, the cycle's timestamp and the fixed metadata. */
  lemma {:induction false} ScopeStamped(names: Names, sample: map<string, real>, units: map<string, string>,
                                        scope: Scope, timestamp: int, e: Emission)
    requires e == PublishScope(names, sample, units, scope, timestamp)
    ensures forall i :: 0 <= i < |e.records| ==>
              e.records[i].scope == scope && e.records[i].timestamp == timestamp
              && e.records[i].sensor == Sensor && e.records[i].missing == Missing
    decreases |names|
  {
    if |names| > 0 {
      var rest := PublishScope(names[1..], sample, units, scope, timestamp);
      ScopeStamped(names[1..], sample, units, scope, timestamp, rest);
      if names[0].1 in sample && names[0].0 in units {
        assert e.records == [RecordFor(names[0], sample, units, scope, timestamp)] + rest.records;
      }
    }
  }

  /**
   The node loop and the beehive loop publish the same names with the same
   values, units and timestamp, and stop at the same missing units entry; only
   the scope tag differs.
   */
  lemma {:induction false} ScopesAgree(names: Names, sample: map<string, real>, units: map<string, string>,
                                       timestamp: int, node: Emission, beehive: Emission)
    requires node == PublishScope(names, sample, units, Node, timestamp)
    requires beehive == PublishScope(names, sample, units, Beehive, timestamp)
    ensures |node.records| == |beehive.records|
    ensures node.error == beehive.error
    ensures forall i :: 0 <= i < |node.records| ==> node.records[i] == beehive.records[i].(scope := Node)
    decreases |names|
  {
    if |names| > 0 {
      var n := PublishScope(names[1..], sample, units, Node, timestamp);
      var b := PublishScope(names[1..], sample, units, Beehive, timestamp);
      ScopesAgree(names[1..], sample, units, timestamp, n, b);
      if names[0].1 in sample && names[0].0 in units {
        assert node.records == [RecordFor(names[0], sample, units, Node, timestamp)] + n.records;
        assert beehive.records == [RecordFor(names[0], sample, units, Beehive, timestamp)] + b.records;
      }
    }
  }

  /** The query `main` writes before every read (app.py:90). */
  const Query := "0R0\r\n"

  /** One cycle's input: the timestamp taken at its start and the line read back. */
  datatype Reading = Reading(timestamp: int, line: string)

  /** What a run of `main` produced: the queries written, the records emitted, and the error that ended it. */
  datatype Run = Run(queries: seq<string>, records: seq<Record>, stopped: Option<Error>)

  /**
   The emission of one cycle of `main` on one reading (app.py:86-138): a frame
   whose template is not found raises with nothing published, a frame of an
   unknown query publishes nothing and raises nothing, and every record
   carries the reading's timestamp.
   */
  function Cycle(reading: Reading, nodeInterval: real, beehiveInterval: real,
                 names: Names, units: map<string, string>): (e: Emission)
    ensures Frame.Decode(reading.line).Fail? ==> e == Emission([], Some(NotIterable))
    ensures !Frame.KnownPrefix(reading.line) ==> e == Emission([], None)
    ensures forall i :: 0 <= i < |e.records| ==> e.records[i].timestamp == reading.timestamp
  {
    PublishCycle(Frame.Decode(reading.line), nodeInterval, beehiveInterval, names, units, reading.timestamp)
  }

  /** What each reading's cycle would emit, in order. */
  function Emissions(readings: seq<Reading>, nodeInterval: real, beehiveInterval: real,
                     names: Names, units: map<string, string>): (es: seq<Emission>)
    ensures |es| == |readings|
    ensures forall i :: 0 <= i < |readings| ==> es[i] == Cycle(readings[i], nodeInterval, beehiveInterval, names, units)
    decreases |readings|
  {
    if |readings| == 0 then []
    else
      var rest := Emissions(readings[1..], nodeInterval, beehiveInterval, names, units);
      assert forall i :: 1 <= i < |readings| ==> readings[1..][i - 1] == readings[i];
      [Cycle(readings[0], nodeInterval, beehiveInterval, names, units)] + rest
  }

  /**
   `main`'s loop (app.py:178-192) given what each cycle emits: every cycle
   writes the query first; the first cycle that raises ends the loop.
   */
  function Loop(es: seq<Emission>): (r: Run)
    ensures |r.queries| <= |es|
    ensures forall i :: 0 <= i < |r.queries| ==> r.queries[i] == Query
    ensures r.stopped.None? ==> |r.queries| == |es|
    ensures r.stopped.Some? ==> |r.queries| > 0
  {
    if |es| == 0 then Run([], [], None)
    else if es[0].error.Some? then Run([Query], es[0].records, es[0].error)
    else
      var rest := Loop(es[1..]);
      Run([Query] + rest.queries, es[0].records + rest.records, rest.stopped)
  }

  /**
   The loop runs one cycle per query it wrote: every cycle but the last one
   completed, and the error that ended the loop is the last cycle's; a loop
   that did not stop completed every cycle.
   */
  lemma {:induction false} LoopStops(es: seq<Emission>, r: Run)
    requires r == Loop(es)
    ensures forall i :: 0 <= i < |r.queries| - 1 ==> es[i].error.None?
    ensures r.stopped.None? ==> forall i :: 0 <= i < |es| ==> es[i].error.None?
    ensures r.stopped.Some? ==> r.stopped == es[|r.queries| - 1].error
    decreases |es|
  {
    if |es| > 0 && es[0].error.None? {
      var rest := Loop(es[1..]);
      LoopStops(es[1..], rest);
      assert r == Run([Query] + rest.queries, es[0].records + rest.records, rest.stopped);
      assert forall i :: 1 <= i < |es| ==> es[i] == es[1..][i - 1];
    }
  }

  /** A loop over cycles of which the first ones all complete continues with the loop over the others. */
  lemma {:induction false} LoopAppend(a: seq<Emission>, b: seq<Emission>, ra: Run, rb: Run)
    requires ra == Loop(a) && ra.stopped.None?
    requires rb == Loop(b)
    ensures Loop(a + b) == Run(ra.queries + rb.queries, ra.records + rb.records, rb.stopped)
    decreases |a|
  {
    if |a| == 0 {
      assert a + b == b;
    } else {
      var rest := Loop(a[1..]);
      LoopStep(a);
      LoopAppend(a[1..], b, rest, rb);
      Strings.HeadTail(a, b);
      LoopStep(a + b);
      Strings.Assoc([Query], rest.queries, rb.queries);
      Strings.Assoc(a[0].records, rest.records, rb.records);
    }
  }

  /** One completed cycle followed by the loop over the remaining ones. */
  lemma LoopStep(es: seq<Emission>)
    requires |es| > 0 && es[0].error.None?
    ensures Loop(es) == Run([Query] + Loop(es[1..]).queries, es[0].records + Loop(es[1..]).records, Loop(es[1..]).stopped)
  {
  }

  /**
   `main` over a finite list of readings (app.py:180-192); the source loops for
   ever. Every cycle writes the query; the run goes through all readings
   exactly when no cycle raises, and otherwise ends with the error of the
   first cycle that raises, every cycle before it having completed.
   */
  function RunMain(readings: seq<Reading>, nodeInterval: real, beehiveInterval: real,
                   names: Names, units: map<string, string>): (r: Run)
    ensures |r.queries| <= |readings|
    ensures forall i :: 0 <= i < |r.queries| ==> r.queries[i] == Query
    ensures r.stopped.None? <==> forall i :: 0 <= i < |readings| ==> Cycle(readings[i], nodeInterval, beehiveInterval, names, units).error.None?
    ensures r.stopped.Some? ==> |r.queries| > 0
    ensures r.stopped.Some? ==> r.stopped == Cycle(readings[|r.queries| - 1], nodeInterval, beehiveInterval, names, units).error
    ensures forall i :: 0 <= i < |r.queries| - 1 ==> Cycle(readings[i], nodeInterval, beehiveInterval, names, units).error.None?
  {
    var es := Emissions(readings, nodeInterval, beehiveInterval, names, units);
    LoopEnds(es);
    Loop(es)
  }

  /** The loop ends exactly at its first raising cycle, or runs through all of them. */
  lemma LoopEnds(es: seq<Emission>)
    ensures var r := Loop(es);
            (r.stopped.None? <==> forall i :: 0 <= i < |es| ==> es[i].error.None?)
            && (r.stopped.Some? ==> r.stopped == es[|r.queries| - 1].error)
            && (forall i :: 0 <= i < |r.queries| - 1 ==> es[i].error.None?)
  {
    LoopStops(es, Loop(es));
    if forall i :: 0 <= i < |es| ==> es[i].error.None? {
      LoopCompletes(es);
    }
  }

  /** A loop over cycles that all complete writes every query and does not stop. */
  lemma {:induction false} LoopCompletes(es: seq<Emission>)
    requires forall i :: 0 <= i < |es| ==> es[i].error.None?
    ensures Loop(es).stopped.None?
    decreases |es|
  {
    if |es| > 0 {
      assert forall i :: 0 <= i < |es| - 1 ==> es[1..][i] == es[i + 1];
      LoopCompletes(es[1..]);
    }
  }

  /**
   A cycle that raises ends the loop: after the completed cycles before it,
   the run writes one more query, keeps the records that cycle emitted before
   raising, and stops with its error; the readings after it are never used.
   */
  lemma RunStopsAt(a: seq<Reading>, bad: Reading, b: seq<Reading>, nodeInterval: real, beehiveInterval: real,
                   names: Names, units: map<string, string>, ra: Run, eb: Emission)
    requires ra == RunMain(a, nodeInterval, beehiveInterval, names, units) && ra.stopped.None?
    requires eb == Cycle(bad, nodeInterval, beehiveInterval, names, units) && eb.error.Some?
    ensures RunMain(a + [bad] + b, nodeInterval, beehiveInterval, names, units)
         == Run(ra.queries + [Query], ra.records + eb.records, eb.error)
  {
    var ea := Emissions(a, nodeInterval, beehiveInterval, names, units);
    var es := Emissions([bad] + b, nodeInterval, beehiveInterval, names, units);
    assert a + [bad] + b == a + ([bad] + b);
    EmissionsAppend(a, [bad] + b, nodeInterval, beehiveInterval, names, units);
    assert es[0] == eb by {
      assert ([bad] + b)[0] == bad;
    }
    var rb := Loop(es);
    assert rb == Run([Query], eb.records, eb.error);
    LoopAppend(ea, es, ra, rb);
  }

  /**
   A frame with a known prefix whose template is not found ends the loop in
   the cycle that read it, after the cycles before it, with nothing published
   by that cycle.
   */
  lemma RunStopsAtFail(a: seq<Reading>, bad: Reading, b: seq<Reading>, nodeInterval: real, beehiveInterval: real,
                       names: Names, units: map<string, string>, ra: Run)
    requires ra == RunMain(a, nodeInterval, beehiveInterval, names, units) && ra.stopped.None?
    requires Frame.Decode(bad.line) == Frame.Fail
    ensures RunMain(a + [bad] + b, nodeInterval, beehiveInterval, names, units)
         == Run(ra.queries + [Query], ra.records, Some(NotIterable))
  {
    var eb := Cycle(bad, nodeInterval, beehiveInterval, names, units);
    RunStopsAt(a, bad, b, nodeInterval, beehiveInterval, names, units, ra, eb);
    assert ra.records + [] == ra.records;
  }

  lemma EmissionsAppend(a: seq<Reading>, b: seq<Reading>, nodeInterval: real, beehiveInterval: real,
                        names: Names, units: map<string, string>)
    ensures Emissions(a + b, nodeInterval, beehiveInterval, names, units)
         == Emissions(a, nodeInterval, beehiveInterval, names, units) + Emissions(b, nodeInterval, beehiveInterval, names, units)
  {
    var ea := Emissions(a, nodeInterval, beehiveInterval, names, units);
    var eb := Emissions(b, nodeInterval, beehiveInterval, names, units);
    var all := Emissions(a + b, nodeInterval, beehiveInterval, names, units);
    forall i | 0 <= i < |all| ensures all[i] == (ea + eb)[i] {
      if i < |a| {
        assert (a + b)[i] == a[i];
      } else {
        assert (a + b)[i] == b[i - |a|];
      }
    }
  }
}

=== FILE: strings.dfy ===
/** Small facts about strings and sequences shared by the decoder, the publisher and the logger. */
module Strings {

  /** Python's `s.startswith(p)`. */
  predicate StartsWith(s: string, p: string) {
    |p| <= |s| && s[..|p|] == p
  }

  lemma StartsWithConcat(p: string, rest: string)
    ensures StartsWith(p + rest, p)
  {
    assert (p + rest)[..|p|] == p;
  }

  /** Concatenation is associative; the sequence axioms leave regrouping to the caller. */
  lemma Assoc<T>(a: seq<T>, b: seq<T>, c: seq<T>)
    ensures a + b + c == a + (b + c)
  {
  }

  /** Regrouping four pieces, as the decoder's field and frame texts need it. */
  lemma Associative<T>(a: seq<T>, b: seq<T>, c: seq<T>, d: seq<T>)
    ensures a + (b + c + d) == a + b + c + d
    ensures a + (b + (c + d)) == a + b + c + d
  {
    Assoc(a, b + c, d);
    Assoc(b, c, d);
    Assoc(a, b, c);
  }

  /** A non-empty sequence is its head followed by its tail. */
  lemma ConsTail<T>(xs: seq<T>)
    requires |xs| > 0
    ensures [xs[0]] + xs[1..] == xs
  {
  }

  /** The head and tail of a concatenation whose left part is non-empty. */
  lemma HeadTail<T>(a: seq<T>, b: seq<T>)
    requires |a| > 0
    ensures |a + b| > 0 && (a + b)[0] == a[0] && (a + b)[1..] == a[1..] + b
  {
  }

  lemma InLeft<T>(x: T, a: seq<T>, b: seq<T>)
    requires x in a
    ensures x in a + b
  {
    var i :| 0 <= i < |a| && a[i] == x;
    assert (a + b)[i] == x;
  }

  lemma InRight<T>(x: T, a: seq<T>, b: seq<T>)
    requires x in b
    ensures x in a + b
  {
    var i :| 0 <= i < |b| && b[i] == x;
    assert (a + b)[|a| + i] == x;
  }

  lemma InPrefix(x: char, s: string, p: string)
    requires StartsWith(s, p) && x in p
    ensures x in s
  {
    var i :| 0 <= i < |p| && p[i] == x;
    assert s[..|p|][i] == x;
  }
}

=== FILE: tables.dfy ===
/**
 The publish-name and units tables of `main` (app.py:141-176), and the loop
 of `main` run with them.

 The units table as written keys the hail duration as `wxt.hail.duratioun`
 (app.py:170) while the name table spells it `wxt.hail.duration`
 (app.py:151). `UnitsAsWritten` keeps the misspelling; `Units` is the table
 with the key spelt as the name table spells it, and `MainCorrected` uses it.
 */
module Tables {
  import Decimal
  import Frame
  import opened Options
  import opened Publish

  /** `publish_names` (app.py:141-158), in its insertion order. */
  const PublishNames: Names := [
    ("wxt.wind.direction", "Dm"),
    ("wxt.wind.speed", "Sm"),
    ("wxt.env.temp", "Ta"),
    ("wxt.env.humidity", "Ua"),
    ("wxt.env.pressure", "Pa"),
    ("wxt.rain.accumulation", "Rc"),
    ("wxt.rain.duration", "Rd"),
    ("wxt.rain.intensity", "Ri"),
    ("wxt.rain.peak", "Rp"),
    ("wxt.hail.accumulation", "Hc"),
    ("wxt.hail.duration", "Hd"),
    ("wxt.hail.intensity", "Hi"),
    ("wxt.hail.peak", "Hp"),
    ("wxt.heater.temp", "Th"),
    ("wxt.heater.volt", "Vh"),
    ("wxt.voltage.supply", "Vs"),
    ("wxt.voltage.reference", "Vr")
  ]

  /** `units` (app.py:160-176) as written, with the misspelt hail-duration key. */
  const UnitsAsWritten: map<string, string> := map[
    "wxt.wind.direction" := "degrees",
    "wxt.wind.speed" := "meters per second",
    "wxt.env.temp" := "degree Celsius",
    "wxt.env.humidity" := "percent",
    "wxt.env.pressure" := "hectoPascal",
    "wxt.rain.accumulation" := "milimeters",
    "wxt.rain.duration" := "seconds",
    "wxt.rain.intensity" := "millimeters per hour",
    "wxt.rain.peak" := "millimeters per hour",
    "wxt.hail.accumulation" := "hits per square centimeter",
    "wxt.hail.duratioun" := "seconds",
    "wxt.hail.intensity" := "hits per square centimeter per hour",
    "wxt.hail.peak" := "hits per square centimeter per hour",
    "wxt.voltage.supply" := "volts",
    "wxt.heater.temp" := "degree Celsius",
    "wxt.heater.volt" := "volts",
    "wxt.voltage.reference" := "volts"
  ]

  /** The units table with the hail-duration key spelt as in `publish_names`. */
  const Units: map<string, string> := (UnitsAsWritten - {"wxt.hail.duratioun"})["wxt.hail.duration" := "seconds"]

  /** The one publish name the units table as written has no entry for is the hail duration. */
  lemma UnitsAsWrittenMissesHailDuration()
    ensures forall i :: 0 <= i < |PublishNames| ==>
              (PublishNames[i].0 !in UnitsAsWritten <==> PublishNames[i].0 == "wxt.hail.duration")
  {
  }

  /** With the key spelt consistently, every publish name has units. */
  lemma UnitsCoverNames()
    ensures forall i :: 0 <= i < |PublishNames| ==> PublishNames[i].0 in Units
  {
    UnitsAsWrittenMissesHailDuration();
  }

  /** The keys a precipitation frame (`0R3`) decodes to, as `parse_values` names them. */
  const PrecipitationKeys: set<string> := {"Rc", "Rd", "Ri", "Hc", "Hd", "Hi"}

  lemma NotPrecipitationKey(sample: map<string, real>, k: string)
    requires sample.Keys == PrecipitationKeys
    requires |k| == 2 && ((k[0] != 'R' && k[0] != 'H') || (k[1] != 'c' && k[1] != 'd' && k[1] != 'i'))
    ensures k !in sample
  {
  }

  /**
   Over any table of the shape of `publish_names`, a sample holding exactly the
   keys of entries 5-7 and 9-11 keeps those entries, in order.
   */
  lemma PresentRainAndHail(n: Names, sample: map<string, real>)
    requires |n| == 17
    requires forall i :: 0 <= i < 17 ==> (n[i].1 in sample <==> (5 <= i < 8 || 9 <= i < 12))
    ensures Present(n, sample) == n[5..8] + n[9..12]
  {
    PresentSkipRun(n, sample, 5);
    PresentKeepRun(n[5..], sample, 3);
    assert n[5..][3..] == n[8..] && n[5..][..3] == n[5..8];
    PresentSkipRun(n[8..], sample, 1);
    assert n[8..][1..] == n[9..];
    PresentKeepRun(n[9..], sample, 3);
    assert n[9..][3..] == n[12..] && n[9..][..3] == n[9..12];
    PresentSkipRun(n[12..], sample, 5);
    assert n[12..][5..] == [];
  }

  /** The table entries a precipitation sample holds a key for, in table order. */
  lemma PrecipitationPresent(sample: map<string, real>)
    requires sample.Keys == PrecipitationKeys
    ensures Present(PublishNames, sample) == PublishNames[5..8] + PublishNames[9..12]
  {
    var n := PublishNames;
    forall i | 0 <= i < 17
      ensures n[i].1 in sample <==> (i == 5 || i == 6 || i == 7 || i == 9 || i == 10 || i == 11)
    {
      if i == 0 {
        NotPrecipitationKey(sample, n[0].1);
      } else if i == 1 {
        NotPrecipitationKey(sample, n[1].1);
      } else if i == 2 {
        NotPrecipitationKey(sample, n[2].1);
      } else if i == 3 {
        NotPrecipitationKey(sample, n[3].1);
      } else if i == 4 {
        NotPrecipitationKey(sample, n[4].1);
      } else if i == 5 {
        assert n[5].1 == "Rc";
      } else if i == 6 {
        assert n[6].1 == "Rd";
      } else if i == 7 {
        assert n[7].1 == "Ri";
      } else if i == 8 {
        NotPrecipitationKey(sample, n[8].1);
      } else if i == 9 {
        assert n[9].1 == "Hc";
      } else if i == 10 {
        assert n[10].1 == "Hd";
      } else if i == 11 {
        assert n[11].1 == "Hi";
      } else if i == 12 {
        NotPrecipitationKey(sample, n[12].1);
      } else if i == 13 {
        NotPrecipitationKey(sample, n[13].1);
      } else if i == 14 {
        NotPrecipitationKey(sample, n[14].1);
      } else if i == 15 {
        NotPrecipitationKey(sample, n[15].1);
      } else if i == 16 {
        NotPrecipitationKey(sample, n[16].1);
      }
    }
    PresentRainAndHail(n, sample);
  }

  /**
   A precipitation sample makes the loop of any enabled scope raise `KeyError`
   on the hail duration, after publishing the rain accumulation, duration and
   intensity and the hail accumulation.
   */
  lemma HailDurationRaises(sample: map<string, real>, scope: Scope, timestamp: int, e: Emission)
    requires sample.Keys == PrecipitationKeys
    requires e == PublishScope(PublishNames, sample, UnitsAsWritten, scope, timestamp)
    ensures e.error == Some(KeyError("wxt.hail.duration"))
    ensures |e.records| == 4
    ensures e.records[0].name == "wxt.rain.accumulation" && e.records[1].name == "wxt.rain.duration"
    ensures e.records[2].name == "wxt.rain.intensity" && e.records[3].name == "wxt.hail.accumulation"
  {
    PrecipitationPresent(sample);
    RainAndHailNames();
    AsWrittenUnitsOfRainAndHail();
    RaisesAtFifthPresent(PublishNames, sample, UnitsAsWritten, scope, timestamp, e);
  }

  /** The names of the rain and hail entries of `publish_names`. */
  lemma RainAndHailNames()
    ensures PublishNames[5].0 == "wxt.rain.accumulation" && PublishNames[6].0 == "wxt.rain.duration"
    ensures PublishNames[7].0 == "wxt.rain.intensity" && PublishNames[9].0 == "wxt.hail.accumulation"
    ensures PublishNames[10].0 == "wxt.hail.duration"
  {
  }

  /** Which rain and hail names the units table as written has an entry for. */
  lemma AsWrittenUnitsOfRainAndHail()
    ensures "wxt.rain.accumulation" in UnitsAsWritten && "wxt.rain.duration" in UnitsAsWritten
    ensures "wxt.rain.intensity" in UnitsAsWritten && "wxt.hail.accumulation" in UnitsAsWritten
    ensures "wxt.hail.duration" !in UnitsAsWritten
  {
  }

  /**
   Over any table of the shape of `publish_names` whose present entries are
   5-7 and 9-11: when the units cover entries 5-7 and 9 but not 10, a scope's
   loop publishes four records and raises on entry 10.
   */
  lemma RaisesAtFifthPresent(n: Names, sample: map<string, real>, units: map<string, string>,
                             scope: Scope, timestamp: int, e: Emission)
    requires |n| == 17 && Present(n, sample) == n[5..8] + n[9..12]
    requires n[5].0 in units && n[6].0 in units && n[7].0 in units && n[9].0 in units && n[10].0 !in units
    requires e == PublishScope(n, sample, units, scope, timestamp)
    ensures e.error == Some(KeyError(n[10].0)) && |e.records| == 4
    ensures e.records[0].name == n[5].0 && e.records[1].name == n[6].0
    ensures e.records[2].name == n[7].0 && e.records[3].name == n[9].0
  {
    var p := Present(n, sample);
    RainAndHailEntries(n, p);
    PublishScopeRaisesAt(n, sample, units, scope, timestamp, e, p, 4);
  }

  lemma RainAndHailEntries(n: Names, p: Names)
    requires |n| == 17 && p == n[5..8] + n[9..12]
    ensures |p| == 6 && p[0] == n[5] && p[1] == n[6] && p[2] == n[7]
    ensures p[3] == n[9] && p[4] == n[10] && p[5] == n[11]
  {
  }

  /** The hail duration is the table's eleventh entry, keyed `Hd`, and no other entry has its name. */
  lemma HailDurationEntry()
    ensures PublishNames[10] == ("wxt.hail.duration", "Hd")
    ensures forall i :: 0 <= i < |PublishNames| ==> (PublishNames[i].0 == "wxt.hail.duration" <==> i == 10)
  {
  }

  /**
   With the units table as written, a scope's loop raises exactly when the
   sample holds the hail duration, and then always on that name.
   */
  lemma AsWrittenScopeRaises(sample: map<string, real>, scope: Scope, timestamp: int, e: Emission)
    requires e == PublishScope(PublishNames, sample, UnitsAsWritten, scope, timestamp)
    ensures e.error.Some? <==> "Hd" in sample
    ensures e.error.Some? ==> e.error == Some(KeyError("wxt.hail.duration"))
  {
    var n := PublishNames;
    UnitsAsWrittenMissesHailDuration();
    HailDurationEntry();
    if e.error.Some? {
      var p := Present(n, sample);
      PublishScopeStops(n, sample, UnitsAsWritten, scope, timestamp, e, p);
      PresentMembers(n, sample, p);
      var entry := p[|e.records|];
      assert entry in n;
      var i :| 0 <= i < |n| && n[i] == entry;
      assert entry.0 == "wxt.hail.duration";
      assert i == 10;
    }
  }

  /**
   With the units table as written, a cycle raises `KeyError` exactly when the
   frame decoded to a sample holding the hail duration and at least one scope
   is enabled; any other error is the failed search of a known prefix.
   */
  lemma AsWrittenCycleRaises(decoded: Frame.DecodeResult, nodeInterval: real, beehiveInterval: real,
                             timestamp: int, e: Emission)
    requires e == PublishCycle(decoded, nodeInterval, beehiveInterval, PublishNames, UnitsAsWritten, timestamp)
    ensures e.error == Some(KeyError("wxt.hail.duration"))
        <==> decoded.Sample? && "Hd" in decoded.values && (nodeInterval > 0.0 || beehiveInterval > 0.0)
    ensures e.error.Some? && e.error != Some(KeyError("wxt.hail.duration")) ==> decoded.Fail?
  {
    if decoded.Sample? && |decoded.values| > 0 {
      var node := PublishScope(PublishNames, decoded.values, UnitsAsWritten, Node, timestamp);
      var beehive := PublishScope(PublishNames, decoded.values, UnitsAsWritten, Beehive, timestamp);
      AsWrittenScopeRaises(decoded.values, Node, timestamp, node);
      AsWrittenScopeRaises(decoded.values, Beehive, timestamp, beehive);
      CycleScopes(decoded.values, nodeInterval, beehiveInterval, PublishNames, UnitsAsWritten, timestamp,
                  e, node, beehive);
    } else if decoded.Sample? {
      assert "Hd" !in decoded.values;
    }
  }

  /**
   A precipitation sample read in a cycle with an enabled scope ends the cycle
   with `KeyError` on the hail duration, after four records.
   */
  lemma HailDurationStopsCycle(sample: map<string, real>, nodeInterval: real, beehiveInterval: real,
                               timestamp: int, e: Emission)
    requires sample.Keys == PrecipitationKeys
    requires nodeInterval > 0.0 || beehiveInterval > 0.0
    requires e == PublishCycle(Frame.Sample(sample), nodeInterval, beehiveInterval, PublishNames, UnitsAsWritten, timestamp)
    ensures e.error == Some(KeyError("wxt.hail.duration"))
    ensures |e.records| == 4
  {
    assert "Rc" in sample.Keys;
    assert |sample| > 0 by {
      assert |sample.Keys| > 0;
    }
    var node := PublishScope(PublishNames, sample, UnitsAsWritten, Node, timestamp);
    var beehive := PublishScope(PublishNames, sample, UnitsAsWritten, Beehive, timestamp);
    HailDurationRaises(sample, Node, timestamp, node);
    HailDurationRaises(sample, Beehive, timestamp, beehive);
  }

  /** A two-letter code differs from every code of a list that differs from it in a letter. */
  lemma NotACode(codes: seq<string>, k: string)
    requires |k| == 2
    requires forall i :: 0 <= i < |codes| ==> |codes[i]| == 2 && (codes[i][0] != k[0] || codes[i][1] != k[1])
    ensures k !in codes
  {
  }

  /** Of the four templates only the precipitation one lists the hail duration; none lists a peak. */
  lemma TemplateKeys(tpl: Frame.Template)
    requires tpl == Frame.Composite || tpl == Frame.Environmental || tpl == Frame.Precipitation
             || tpl == Frame.HeatingVoltage
    ensures "Hd" in tpl.codes <==> tpl == Frame.Precipitation
    ensures "Rp" !in tpl.codes && "Hp" !in tpl.codes
  {
    NotACode(tpl.codes, "Rp");
    NotACode(tpl.codes, "Hp");
    if tpl == Frame.Precipitation {
      assert tpl.codes[4] == "Hd";
    } else {
      NotACode(tpl.codes, "Hd");
    }
  }

  /**
   Only a precipitation frame (`0R3`) yields the hail duration, and no frame
   yields the rain or hail peak, so `wxt.rain.peak` and `wxt.hail.peak` are
   never published.
   */
  lemma DecodedKeys(text: string)
    requires Frame.Decode(text).Sample?
    ensures "Hd" in Frame.Decode(text).values <==> Frame.TemplateFor(text) == Some(Frame.Precipitation)
    ensures "Rp" !in Frame.Decode(text).values && "Hp" !in Frame.Decode(text).values
  {
    TemplateKeys(Frame.TemplateFor(text).value);
  }

  /** A rendered precipitation frame decodes to a sample holding exactly the precipitation keys. */
  lemma PrecipitationFrameKeys(text: string, toks: seq<Decimal.Token>, tail: string)
    requires |toks| == 6 && Frame.ValidTokens(toks)
    requires text == "0R3" + "," + Frame.Render(Frame.Precipitation, toks) + tail
    ensures Frame.Decode(text).Sample? && Frame.Decode(text).values.Keys == PrecipitationKeys
  {
    Frame.Dispatch();
    Frame.DecodeRender("0R3", toks, tail);
    var m := Frame.Zip(Frame.Precipitation.codes, Frame.Values(toks));
    assert Frame.Decode(text) == Frame.Sample(m);
    PrecipitationCodes();
  }

  /** The precipitation template's codes are the precipitation keys. */
  lemma PrecipitationCodes()
    ensures (set c | c in Frame.Precipitation.codes) == PrecipitationKeys
  {
    var codes := Frame.Precipitation.codes;
    forall c | c in PrecipitationKeys
      ensures c in codes
    {
      if c == "Rc" {
        assert codes[0] == c;
      } else if c == "Rd" {
        assert codes[1] == c;
      } else if c == "Ri" {
        assert codes[2] == c;
      } else if c == "Hc" {
        assert codes[3] == c;
      } else if c == "Hd" {
        assert codes[4] == c;
      } else {
        assert codes[5] == c;
      }
    }
  }

  /**
   With the corrected units table a cycle raises only when the search of a
   known prefix fails, and each enabled scope publishes one record per table
   entry whose key the sample holds.
   */
  lemma CorrectedCycleCompletes(decoded: Frame.DecodeResult, nodeInterval: real, beehiveInterval: real,
                                timestamp: int, e: Emission)
    requires e == PublishCycle(decoded, nodeInterval, beehiveInterval, PublishNames, Units, timestamp)
    ensures e.error.None? <==> !decoded.Fail?
    ensures e.error.Some? ==> e.error == Some(NotIterable)
    ensures Truthy(decoded) ==>
              |Only(e.records, Node)| == (if nodeInterval > 0.0 then |Present(PublishNames, decoded.values)| else 0)
    ensures Truthy(decoded) ==>
              |Only(e.records, Beehive)| == (if beehiveInterval > 0.0 then |Present(PublishNames, decoded.values)| else 0)
  {
    if Truthy(decoded) {
      var sample := decoded.values;
      var p := Present(PublishNames, sample);
      var node := PublishScope(PublishNames, sample, Units, Node, timestamp);
      var beehive := PublishScope(PublishNames, sample, Units, Beehive, timestamp);
      UnitsCoverNames();
      PublishScopeStops(PublishNames, sample, Units, Node, timestamp, node, p);
      PublishScopeStops(PublishNames, sample, Units, Beehive, timestamp, beehive, p);
      CycleScopes(sample, nodeInterval, beehiveInterval, PublishNames, Units, timestamp, e, node, beehive);
    }
  }

  /**
   With the corrected units table a precipitation sample publishes all six of
   its values in every enabled scope, where the table as written stops after four.
   */
  lemma CorrectedPrecipitationCycle(sample: map<string, real>, nodeInterval: real, beehiveInterval: real,
                                    timestamp: int, e: Emission)
    requires sample.Keys == PrecipitationKeys
    requires e == PublishCycle(Frame.Sample(sample), nodeInterval, beehiveInterval, PublishNames, Units, timestamp)
    ensures e.error.None?
    ensures |Only(e.records, Node)| == (if nodeInterval > 0.0 then 6 else 0)
    ensures |Only(e.records, Beehive)| == (if beehiveInterval > 0.0 then 6 else 0)
  {
    assert "Rc" in sample.Keys;
    assert |sample| > 0 by {
      assert |sample.Keys| > 0;
    }
    PrecipitationPresent(sample);
    CorrectedCycleCompletes(Frame.Sample(sample), nodeInterval, beehiveInterval, timestamp, e);
  }

  /** `main` (app.py:178-192) over a finite list of readings, with the units table as written. */
  function MainAsWritten(readings: seq<Reading>, nodeInterval: real, beehiveInterval: real): (r: Run)
    ensures r.stopped.Some? ==> r.stopped == Some(NotIterable) || r.stopped == Some(KeyError("wxt.hail.duration"))
  {
    AsWrittenRunStops(readings, nodeInterval, beehiveInterval);
    RunMain(readings, nodeInterval, beehiveInterval, PublishNames, UnitsAsWritten)
  }

  /** `main` over a finite list of readings, with the hail-duration key spelt consistently. */
  function MainCorrected(readings: seq<Reading>, nodeInterval: real, beehiveInterval: real): (r: Run)
    ensures r.stopped.None? <==> forall i :: 0 <= i < |readings| ==> Frame.Decode(readings[i].line) != Frame.Fail
    ensures r.stopped.Some? ==> r.stopped == Some(NotIterable)
  {
    CorrectedRunStops(readings, nodeInterval, beehiveInterval);
    RunMain(readings, nodeInterval, beehiveInterval, PublishNames, Units)
  }

  /** A run with the table as written stops only on a failed search or on the hail duration. */
  lemma AsWrittenRunStops(readings: seq<Reading>, nodeInterval: real, beehiveInterval: real)
    ensures var r := RunMain(readings, nodeInterval, beehiveInterval, PublishNames, UnitsAsWritten);
            r.stopped.Some? ==> r.stopped == Some(NotIterable) || r.stopped == Some(KeyError("wxt.hail.duration"))
  {
    var es := Emissions(readings, nodeInterval, beehiveInterval, PublishNames, UnitsAsWritten);
    var r := Loop(es);
    LoopStops(es, r);
    if r.stopped.Some? {
      var k := |r.queries| - 1;
      AsWrittenCycleRaises(Frame.Decode(readings[k].line), nodeInterval, beehiveInterval, readings[k].timestamp, es[k]);
    }
  }

  /** A run with the corrected table stops exactly when some frame's search fails. */
  lemma CorrectedRunStops(readings: seq<Reading>, nodeInterval: real, beehiveInterval: real)
    ensures var r := RunMain(readings, nodeInterval, beehiveInterval, PublishNames, Units);
            (r.stopped.None? <==> forall i :: 0 <= i < |readings| ==> Frame.Decode(readings[i].line) != Frame.Fail)
            && (r.stopped.Some? ==> r.stopped == Some(NotIterable))
  {
    var es := Emissions(readings, nodeInterval, beehiveInterval, PublishNames, Units);
    var r := Loop(es);
    LoopStops(es, r);
    forall i | 0 <= i < |readings|
      ensures es[i].error.None? <==> Frame.Decode(readings[i].line) != Frame.Fail
      ensures es[i].error.Some? ==> es[i].error == Some(NotIterable)
    {
      CorrectedCycleCompletes(Frame.Decode(readings[i].line), nodeInterval, beehiveInterval, readings[i].timestamp, es[i]);
    }
    if forall i :: 0 <= i < |readings| ==> Frame.Decode(readings[i].line) != Frame.Fail {
      LoopCompletes(es);
    }
  }

  /**
   A precipitation frame read after completed cycles ends `main` as written:
   one more query is written, four more records are published, and the loop
   stops with `KeyError` on the hail duration.
   */
  lemma HailDurationEndsMain(a: seq<Reading>, reading: Reading, b: seq<Reading>, toks: seq<Decimal.Token>,
                             tail: string, nodeInterval: real, beehiveInterval: real, ra: Run)
    requires ra == MainAsWritten(a, nodeInterval, beehiveInterval) && ra.stopped.None?
    requires |toks| == 6 && Frame.ValidTokens(toks)
    requires reading.line == "0R3" + "," + Frame.Render(Frame.Precipitation, toks) + tail
    requires nodeInterval > 0.0 || beehiveInterval > 0.0
    ensures var r := MainAsWritten(a + [reading] + b, nodeInterval, beehiveInterval);
            r.stopped == Some(KeyError("wxt.hail.duration"))
            && |r.queries| == |ra.queries| + 1 && |r.records| == |ra.records| + 4
  {
    PrecipitationFrameKeys(reading.line, toks, tail);
    var decoded := Frame.Decode(reading.line);
    var eb := Cycle(reading, nodeInterval, beehiveInterval, PublishNames, UnitsAsWritten);
    HailDurationStopsCycle(decoded.values, nodeInterval, beehiveInterval, reading.timestamp, eb);
    RunStopsAt(a, reading, b, nodeInterval, beehiveInterval, PublishNames, UnitsAsWritten, ra, eb);
  }
}
